=== FILE: README.md ===
# MemoryEngine, modelled in Dafny

`MemoryEngine` (src/core/memory-engine.ts) stores short text records ("memories")
in a SQLite table. In front of the table sit up to three tiers of cache:

- an optional Redis store with one `memory:<id>` entry per record;
- a process-local `Map` from id to record, filled at startup by a warm load of at
  most 1000 rows;
- a search-result cache keyed by the query and its options.

Fuzzy search runs over a Fuse.js collection built from the local cache. The engine
also counts cache hits and misses and keeps a sliding window of the last 100
latency samples per operation.

The model covers the whole class: its schema invariants, every public operation,
and the private helpers they call. Each operation's effect on all nine pieces of
engine state is proved.

## Layout

| file | module | what it holds |
|---|---|---|
| `records.dfy` | `Records` | the record, the draft that `addMemory` takes, the partial update, the `{...memory, ...updates}` merge, the derived search text |
| `durable_store.dfy` | `DurableStore` | the `memories` table as rows in rowid order, with these statements: SELECT by id, INSERT, UPDATE, use-count UPDATE, DELETE and LIMIT; the PRIMARY KEY and search-text invariants |
| `listings.dfy` | `Listings` | the four ordered scans: recent, all, popular and warm load, each a filter, a descending sort and a limit |
| `search_pipeline.dfy` | `SearchPipeline` | the search options, the project, directory and tag filters, `options.limit \|\| 50`, `slice`, and the choice between fuzzy and full-text candidates |
| `metrics.dfy` | `Metrics` | `recordOperation`'s 100-sample window and `getPerformanceStats`'s counts |
| `sublists.dfy` | `Sublists` | order-preserving sub-sequences: what a filter or a DELETE leaves of a sequence |
| `engine.dfy` | `Engine` | the `MemoryEngine` class, with fields for the table, Redis, the fuzzy collection, both caches, the counters and the windows |
| `scenarios.dfy` | `Scenarios` | what a caller can rely on across several calls |

The class is imperative, like the source. Each method that changes state names
in its `modifies` clause the fields it may change: the whole object, or single
fields such as ``this`searchCache``. `GetCacheStats` and `GetPerformanceCounts`
change nothing. Each postcondition states the whole new state, usually in terms
of the pure functions of the other modules, and those functions carry the lemmas.
`Valid()` holds three invariants, and every method preserves them:

- the table's ids are distinct and every row's search text is current;
- every latency window holds at most 100 samples;
- every list held by the search-result cache satisfies the filters of the
  options it is held under, and is no longer than their limit (`limit || 50`,
  when positive).

A fourth invariant, `RedisBehindCache()`, says that Redis holds no id the local
cache lacks. It holds when the engine is opened with an empty or absent Redis.
Every method that writes either cache promises to keep it. Under it, Redis never
answers `getMemory`, so the engine answers the same with Redis as without it.

How the environment is modelled:

- **Clock, fresh ids, elapsed times.** These are parameters: `now`, `id` and
  `elapsed`.
- **I/O outcomes.** Each is a boolean parameter:
  - `storageFault` rejects an INSERT or UPDATE, and the exception propagates;
  - `dbReadFails` makes a read answer null or an empty list;
  - `redisGetFails` makes a Redis `get` fail, which is caught;
  - `loadFails` makes the warm load fail.
- **Search engines.** The Fuse.js matcher and SQLite's FTS5 `MATCH`/`bm25` ranking
  are foreign code. Their answers arrive as the sequences `fuzzyHits` and
  `ftsRanked`. The model applies everything the engine does to those answers: the
  project clause, the limit, the filters and the slice. What the model assumes of
  them: every fuzzy hit is a record of the fuzzy index's collection, and every
  full-text row is a row of the table.
- **Redis.** Its entries are a map, and `None` stands for no connection.
- **Fuzzy index.** Its collection is `None` until the warm load has built it.
- **Timestamps.** Each is a natural number of milliseconds, so comparing the ISO
  strings becomes comparing numbers.

### Where the tiers and the table can disagree, and other observations of the code

- No query filters on `user_id`, although every row carries one: listings and
  searches range over all owners' records.
- `include_archived` is accepted in the search options and becomes part of the
  search-result cache key, but no query or filter reads it.
- A cache tier can hold a record that differs from the table's, in three ways:
  - `incrementUseCount` bumps the cached record's `metadata.use_count` and
    `metadata.last_used`, but in the table only the `use_count` and `last_used`
    columns. The row's `metadata` column keeps the old values, and
    `parseMemoryRow` never returns the columns. `Engine.IncrementDivergesFromTable`
    proves this divergence.
  - `updateMemory` puts the whole merged record into the caches. The UPDATE does
    not write `user_id` or `created_at`, and it matches on the merged record's
    `id`, while the caches are keyed by the requested id.
  - A failing Redis `setEx` or `del`, or a failing un-awaited `db.run` in
    `incrementUseCount` or `deleteMemory`, comes after the local cache has
    changed, so the tiers and the table no longer hold the same records.
- `memories_fts` is an external-content FTS5 table, and no trigger or statement
  ever fills it. So the full-text strategy finds nothing on a real database. The
  model keeps the strategy general: `ftsRanked` may be any rows of the table,
  in any order, including none.
- `stats.size` is set by the warm load only. Later additions and deletions do not
  change it.

## Model

| member | source | states |
|---|---|---|
| `Records.NewRecordKeepsDraft` | src/core/memory-engine.ts:199-211 | the new record carries the given id, `created_at` = `updated_at` = now, and the draft's fields; `use_count` defaults to 0 only when the draft has none |
| `Records.MergeProperties` | src/core/memory-engine.ts:432-436 | the merge always sets `updated_at` to now; each other field, `id`, `user_id`, `created_at`, `project` and `directory` included, takes the update's value when the update names it and keeps the record's value otherwise; an empty update changes nothing else; merging twice equals merging once |
| `Records.SplitJoin` | src/core/memory-engine.ts:526 | joining a non-empty list of space-free tags with spaces is undone by splitting on spaces |
| `Records.TouchedKeepsSearchText` | src/core/memory-engine.ts:415-419 | use tracking raises `use_count` (absent counts as 0) by one and leaves the search text unchanged |
| `DurableStore.Find` | src/core/memory-engine.ts:555-569 | a row found has the requested id and belongs to the table; none found means no row has that id |
| `DurableStore.FindUnique` | src/core/memory-engine.ts:79 | with the PRIMARY KEY invariant, looking up a row's id finds that very row |
| `DurableStore.Insert` | src/core/memory-engine.ts:524-553 | the INSERT is rejected exactly when the id is already stored; once it is accepted, the new id finds the new row for the record and every other id finds what it found before |
| `DurableStore.InsertKeepsWellFormed` | src/core/memory-engine.ts:530-545 | an accepted INSERT keeps the ids distinct and the search texts current |
| `DurableStore.FindAppended` | src/core/memory-engine.ts:530-533 | a row appended under an id the table lacks is what that id then finds; every other id finds what it found before |
| `DurableStore.UpdateRows` | src/core/memory-engine.ts:577-580 | the UPDATE overwrites content, `updated_at`, project, directory, tags, metadata and search text of the rows with that id, keeps their `user_id`, `created_at`, `use_count` and `last_used`, and leaves every other row unchanged |
| `DurableStore.FindAfterUpdate` | src/core/memory-engine.ts:571-598 | after the UPDATE, the id finds the overwritten row, or nothing if it found nothing before; other ids find what they found before |
| `DurableStore.UpdateKeepsWellFormed` | src/core/memory-engine.ts:573-580 | the UPDATE keeps the ids distinct and recomputes the search text |
| `DurableStore.TouchRows` | src/core/memory-engine.ts:405-412 | the use-count UPDATE adds one to `use_count` and sets `last_used` on the rows with that id, and changes nothing else |
| `DurableStore.FindAfterTouch` | src/core/memory-engine.ts:405-412 | after the use-count UPDATE, the id finds its bumped row; other ids are unaffected |
| `DurableStore.TouchKeepsWellFormed` | src/core/memory-engine.ts:405-412 | the use-count UPDATE keeps both table invariants |
| `DurableStore.DeleteRows` | src/core/memory-engine.ts:457 | the DELETE keeps exactly the rows with another id, and keeps them in the table's order |
| `DurableStore.FindAfterDelete` | src/core/memory-engine.ts:457 | after the DELETE the id finds nothing; other ids find what they found before |
| `DurableStore.DeleteIdempotent` | src/core/memory-engine.ts:457 | deleting an absent id changes nothing, so a second DELETE of the same id is harmless |
| `DurableStore.DeleteKeepsWellFormed` | src/core/memory-engine.ts:457 | the DELETE keeps both table invariants |
| `DurableStore.SqlLimit` | src/core/memory-engine.ts:333 | `LIMIT n` returns a prefix, of length n when there are enough rows, and all rows when n is negative |
| `Listings.Where` | src/core/memory-engine.ts:382 | the WHERE clause keeps exactly the admitted rows, no row more often than the table has it (the popular scan admits only `use_count > 0`) |
| `Listings.InsertDesc` | src/core/memory-engine.ts:331-333 | inserting one row into a rank-descending sequence keeps it descending and adds exactly that row |
| `Listings.SortDesc` | src/core/memory-engine.ts:331-333 | the ORDER BY … DESC result is rank-descending and a permutation of its input |
| `Listings.Ranked` | src/core/memory-engine.ts:356-357 | before the LIMIT, a scan holds every admitted row of the table, in descending rank |
| `Listings.ScanIsSortedSelection` | src/core/memory-engine.ts:328-334 | a scan returns admitted table rows only, in descending rank, as many as the limit allows (all when it is negative) |
| `Listings.ScanIsTopRanked` | src/core/memory-engine.ts:381-384 | no admitted row left out by the LIMIT ranks above a row that is returned |
| `Listings.ScanHasDistinctIds` | src/core/memory-engine.ts:157-161 | a scan never returns two rows with the same id |
| `Listings.PopularSkipsUnused` | src/core/memory-engine.ts:382 | the popular scan never returns a row with `use_count` 0 |
| `SearchPipeline.KeepProject` | src/core/memory-engine.ts:300 | the project filter keeps exactly the records whose project equals the option |
| `SearchPipeline.KeepMatching` | src/core/memory-engine.ts:299-309 | the reference filter keeps, in order, exactly the candidates that satisfy every filter that is set |
| `SearchPipeline.FiltersCompose` | src/core/memory-engine.ts:299-309 | the three filters, each applied only when its option is truthy, equal the one-pass reference filter |
| `SearchPipeline.Slice` | src/core/memory-engine.ts:313 | `slice(0, end)` returns a prefix: `end` elements when there are enough, and for a negative `end`, all but the last `-end` |
| `SearchPipeline.RefineIsFilteredPrefix` | src/core/memory-engine.ts:299-313 | every result is a candidate that passes the filters; the results keep the candidates' order and are the first matching candidates |
| `SearchPipeline.RefineLength` | src/core/memory-engine.ts:312-313 | the number of results is the number of matching candidates capped by the limit, which is 50 when unset or 0; a negative limit drops that many from the end |
| `SearchPipeline.RefineComplete` | src/core/memory-engine.ts:311-313 | when the limit does not bite, every matching candidate is returned |
| `SearchPipeline.FullTextSearchBounded` | src/core/memory-engine.ts:600-628 | full-text candidates satisfy the project filter, come from the index's rows, and are no more than the limit |
| `SearchPipeline.TouchedKeepsMatching` | src/core/memory-engine.ts:414-419 | use tracking never changes whether a record passes the search filters |
| `Metrics.Latest` | src/core/memory-engine.ts:649-652 | the latest 100 samples of any history are a suffix of it, at most 100 long, and the whole history when it is no longer |
| `Metrics.PushBounded` | src/core/memory-engine.ts:646-652 | one sample on a bounded window: it is appended last, and the oldest sample is dropped only when the window was full |
| `Metrics.PushKeepsLatest` | src/core/memory-engine.ts:646-652 | a window that holds the latest 100 samples still does after one more |
| `Metrics.PushAllKeepsLatest` | src/core/memory-engine.ts:641-653 | after any number of samples, the window is exactly the latest 100 of them, oldest first |
| `Metrics.RecordKeepsBounded` | src/core/memory-engine.ts:641-653 | recording keeps every window within 100 samples, adds only the named operation, leaves the other windows alone and ends the named window with the new sample |
| `Metrics.Counts` | src/core/memory-engine.ts:481-494 | every recorded operation has a count, and no count exceeds 100 |
| `Engine.LookupFindsPresentRecords` | src/core/memory-engine.ts:230-271 | without a read fault, `getMemory` answers null exactly when the local cache, a readable Redis and the table all lack the id; a cached id answers the cached record |
| `Engine.RedisIsTransparent` | src/core/memory-engine.ts:240-266 | for one lookup, a Redis tier whose entries agree with the table changes no answer of `getMemory`, whether or not its reads fail (`incrementUseCount` can break that agreement; the invariant the engine keeps is `RedisBehindCache()`) |
| `Engine.RedisBehindCacheIsTransparent` | src/core/memory-engine.ts:240-266 | when Redis holds only ids the local cache holds, `getMemory` answers exactly as without Redis, whether or not Redis reads fail, and never from Redis |
| `Engine.CacheAll` | src/core/memory-engine.ts:169-171 | filling the local cache adds exactly the loaded ids |
| `Engine.SetAll` | src/core/memory-engine.ts:169-171 | the `forEach` loop leaves the cache filled with the records in order, a later record with the same id replacing an earlier one |
| `Engine.CacheAllFrom` | src/core/memory-engine.ts:169-171 | each entry of a cache filled from loaded records is one of those records, under its own id |
| `Engine.WarmLoadAgrees` | src/core/memory-engine.ts:155-171 | the warm load reads at most 1000 records, and each cached entry is the table's current record for its id |
| `Engine.IncrementDivergesFromTable` | src/core/memory-engine.ts:405-419 | after `incrementUseCount`, the table still returns the old record for the id, while the cache holds a different record |
| `Engine.RefinedResults` | src/core/memory-engine.ts:289-313 | a freshly computed result satisfies the filters, is no longer than the positive limit, keeps the candidates' order, and holds only records of the fuzzy collection (fuzzy path) or of table rows (full-text path) |
| `Engine.MemoryEngine.Open` | src/core/memory-engine.ts:61-69 | opens the stored table with Redis connected or not; the caches start empty, the counters at zero, no window recorded and no fuzzy index built; with an empty or absent Redis, Redis holds no id the local cache lacks |
| `Engine.MemoryEngine.CompleteInitialization` | src/core/memory-engine.ts:133-136 | once the schema is set up, `db_init` is recorded and the warm load runs: on success the cache gains the warm records, the fuzzy collection becomes exactly those records, `size` their number, and `cache_load` is recorded; on failure only `db_init` is recorded |
| `Engine.MemoryEngine.RecordOperation` | src/core/memory-engine.ts:641-653 | the windows become those with the sample recorded under the operation; nothing else changes |
| `Engine.MemoryEngine.LoadMemoriesIntoCache` | src/core/memory-engine.ts:150-193 | the warm-load records are added to the local cache in order; the fuzzy collection becomes exactly those records, `size` becomes their number and `cache_load` is recorded; a failed query changes nothing |
| `Engine.MemoryEngine.InstallWarm` | src/core/memory-engine.ts:166-186 | given the loaded records: the cache gains them in order, the fuzzy collection is exactly them, `size` is their number and `cache_load` is recorded |
| `Engine.MemoryEngine.AddMemory` | src/core/memory-engine.ts:195-228 | a stored id is rejected as a duplicate and a storage fault as a fault, both with no state changed; otherwise the row is appended, the local cache and Redis get the new record, the search-result cache is cleared and the fuzzy collection rebuilt |
| `Engine.MemoryEngine.GetMemory` | src/core/memory-engine.ts:230-271 | answers from the first tier holding the id; a cache or Redis answer is a hit, a table answer or null is a miss; the local cache is backfilled, Redis only from a table read; the latency goes to the answering tier's operation |
| `Engine.MemoryEngine.SearchMemories` | src/core/memory-engine.ts:273-321 | every answer, cached or fresh, satisfies the filters of the options and is no longer than `limit || 50` when that is positive; a cached key returns the stored list as a hit; otherwise it returns the filtered, limited candidates in their order (fuzzy when the index exists and `fuzzy` is not false, else full-text), each a record of the fuzzy collection or of a table row accordingly, stores them under the key and counts a miss |
| `Engine.MemoryEngine.RunListing` | src/core/memory-engine.ts:326-347 | a failed query returns nothing and records no sample; otherwise the scan's records, with a sample recorded |
| `Engine.MemoryEngine.GetRecentMemories` | src/core/memory-engine.ts:323-348 | by last use, or creation when never used, newest first, default limit 20; `[]` on a read error |
| `Engine.MemoryEngine.GetAllMemories` | src/core/memory-engine.ts:350-373 | newest created first, default limit 100; `[]` on a read error |
| `Engine.MemoryEngine.GetPopularMemories` | src/core/memory-engine.ts:375-399 | used records only, most used first, then most recently used, default limit 20; `[]` on a read error |
| `Engine.MemoryEngine.IncrementUseCount` | src/core/memory-engine.ts:401-425 | the row's counters are bumped; a cached record gets the bumped metadata and is written to Redis; the search-result cache, fuzzy collection, counters and windows are untouched |
| `Engine.MemoryEngine.UpdateMemory` | src/core/memory-engine.ts:427-451 | reads through `getMemory` with all its effects; nothing further when the id is absent; a storage fault fails after the read; otherwise the merged record goes to the table, the local cache and Redis, the search-result cache is cleared and the fuzzy collection rebuilt |
| `Engine.MemoryEngine.WriteThrough` | src/core/memory-engine.ts:438-450 | the UPDATE is applied, the caches are keyed by the requested id, the search-result cache is cleared, the fuzzy collection rebuilt and `update_memory` recorded |
| `Engine.MemoryEngine.DeleteMemory` | src/core/memory-engine.ts:453-469 | the id leaves the table, the local cache and Redis; the search-result cache is cleared and the fuzzy collection rebuilt; an absent id is no error |
| `Engine.MemoryEngine.GetCacheStats` | src/core/memory-engine.ts:497-503 | reports the hit and miss counts and the warm-load size |
| `Engine.MemoryEngine.GetPerformanceCounts` | src/core/memory-engine.ts:471-495 | one count per recorded operation, equal to its window's length and at most 100 |
| `Scenarios.AddThenGet` | src/core/memory-engine.ts:195-237 | an id the table lacks is accepted, and the record just added is read back, from the local cache, as a hit, whatever state Redis and the table are in; a stored id is rejected as a duplicate |
| `Scenarios.DeleteThenGet` | src/core/memory-engine.ts:453-469 | after a delete, `getMemory` of that id answers null and counts a miss |
| `Scenarios.GetIgnoresRedis` | src/core/memory-engine.ts:230-271 | on an engine whose Redis holds only ids the local cache holds, `getMemory` answers as if Redis were absent, and the engine keeps that property |
| `Scenarios.UpdateThenGet` | src/core/memory-engine.ts:427-451 | after an update, `getMemory` answers the merged record, or null when there was nothing to update |
| `Scenarios.SearchTwice` | src/core/memory-engine.ts:278-285 | a repeated query with the same options returns the first answer, whatever the matchers would now say, that answer satisfies the filters, and at least one hit is counted |
| `Scenarios.OnlyCandidate` | src/core/memory-engine.ts:289-313 | when the only candidate is one record, on either path, the search returns it exactly when it passes the filters and the limit is positive, and nothing otherwise |
| `Scenarios.SearchAfterAdd` | src/core/memory-engine.ts:216-219 | after an accepted add, a search is computed afresh (a miss): when the matchers answer with the new record, it is returned exactly when it passes the filters and the limit is positive |
| `Scenarios.DeleteTwice` | src/core/memory-engine.ts:453-469 | a second delete of the same id changes no store |
| `Scenarios.TouchedIsPopular` | src/core/memory-engine.ts:381-384 | a stored record whose use count was bumped is in the unlimited popular list |
| `Scenarios.IncrementThenPopular` | src/core/memory-engine.ts:401-412 | after `incrementUseCount`, a stored record appears in the unlimited popular list |

## Left out

- Schema creation (`CREATE TABLE`, indexes, the FTS5 virtual table, the `stats`
  table): the table is given; only its PRIMARY KEY and the derived search text
  appear, as `WellFormed`.
- The FTS5 `MATCH` semantics and `bm25` ranking, and Fuse.js scoring: foreign
  code. Their answers are parameters. Fuse.js's `setCollection` becomes the
  collection itself.
- The Redis client: connecting, the one-hour TTL on `setEx`, and failures of
  `setEx`, `del` and `disconnect`. Entries never expire in the model; only a
  failing `get`, which the code catches, is modelled.
- Concurrency between the constructor's unawaited `initializeDatabase` and
  `connectRedis`, and interleaving of async calls: each operation runs to
  completion. The Redis connection's outcome is given to `Open`. The
  initialization continuation is a separate step, `CompleteInitialization`,
  which the caller orders.
- Errors of the unawaited `db.run` in `incrementUseCount` and `deleteMemory`:
  nothing observes them.
- `generateId` (clock and `Math.random`): the fresh id is a parameter. A clash
  with a stored id is modelled as the INSERT's rejection.
- `getCacheStats`' `hitRate` and `memory`, and `getPerformanceStats`' `avg`, `min`
  and `max`: floating point and process memory. Only the integer counts are
  modelled.
- `close`: releases connections and changes no modelled state.
- JSON serialization: records round-trip through `JSON.stringify`/`JSON.parse`
  unchanged. Metadata values other than `use_count`, `last_used` and `category`
  are strings.
- A partial update that sets a field explicitly to `undefined`: only `project`
  and `directory` can be cleared that way. Other fields are either given or kept.
- The search-result cache key: `JSON.stringify({query, options})` depends on the
  order of the options' properties; the model keys on the query and options as
  values.
- Ties in `ORDER BY`: SQL leaves their order open; the sort keeps one admissible
  order.
- The warm load's `last_used > datetime('now', '-7 days')`: this compares an ISO
  string with SQLite's space-separated format. The model compares instants, so it
  ignores how the format difference skews comparisons on the cut-off day.
- Aliasing: `incrementUseCount` mutates the cached object in place, so the same
  object inside stored search results and inside the Fuse.js collection changes
  too. The model replaces the cache entry by value and leaves those copies as they
  were.
- Redis entries left by an earlier process (they live for an hour): an engine
  opened with such a Redis starts without `RedisBehindCache()`, so the model
  promises nothing about Redis being transparent to it.
- src/lib and website/: not part of this model.

=== FILE: durable_store.dfy ===
/** The durable `memories` table: its rows in rowid order, the statements the
    engine runs against it, and the invariants those statements keep. */
module DurableStore {
  import opened Records
  import opened Sublists

  /** A table row: the stored record (its tags and metadata columns parsed)
      plus the columns that parseMemoryRow does not return. */
  datatype Row = Row(record: Memory, searchText: string, useCount: nat, lastUsed: Option<Timestamp>)

  /** The rows in rowid (insertion) order. */
  type Table = seq<Row>

  /** `id TEXT PRIMARY KEY`. */
  predicate DistinctIds(t: Table) {
    forall i, j :: 0 <= i < j < |t| ==> t[i].record.id != t[j].record.id
  }

  /** Every row's `search_text` is derived from its current content, tags and category. */
  predicate SearchTextCurrent(t: Table) {
    forall i :: 0 <= i < |t| ==> t[i].searchText == SearchText(t[i].record)
  }

  predicate WellFormed(t: Table) {
    DistinctIds(t) && SearchTextCurrent(t)
  }

  /** parseMemoryRow: the record columns only (JSON decoding is the identity here). */
  function ParseRow(row: Row): Memory {
    row.record
  }

  function ParseRows(rows: seq<Row>): (ms: seq<Memory>)
    ensures |ms| == |rows|
    ensures forall i :: 0 <= i < |rows| ==> ms[i] == rows[i].record
  {
    seq(|rows|, i requires 0 <= i < |rows| => ParseRow(rows[i]))
  }

  /** `SELECT * FROM memories WHERE id = ?`. */
  function Find(t: Table, id: Id): (r: Option<Row>)
    ensures r.Some? ==> r.value in t && r.value.record.id == id
    ensures r.None? ==> forall row :: row in t ==> row.record.id != id
  {
    if |t| == 0 then None
    else if t[0].record.id == id then Some(t[0])
    else Find(t[1..], id)
  }

  lemma {:induction false} FindUnique(t: Table, row: Row)
    requires DistinctIds(t)
    requires row in t
    ensures Find(t, row.record.id) == Some(row)
  {
    if t[0] != row {
      assert row in t[1..];
      var j :| 1 <= j < |t| && t[j] == row;
      assert t[0].record.id != row.record.id;
      FindUnique(t[1..], row);
    }
  }

  lemma DistinctCons(x: Row, t: Table)
    ensures DistinctIds([x] + t) <==>
            (forall row :: row in t ==> row.record.id != x.record.id) && DistinctIds(t)
  {
    var s := [x] + t;
    if DistinctIds(s) {
      forall i, j | 0 <= i < j < |t| ensures t[i].record.id != t[j].record.id {
        assert s[i + 1] == t[i] && s[j + 1] == t[j];
      }
      forall row | row in t ensures row.record.id != x.record.id {
        var j :| 0 <= j < |t| && t[j] == row;
        assert s[0] == x && s[j + 1] == row;
      }
    }
  }

  /** The row INSERT writes: `use_count` defaults to 0 and `last_used` to NULL. */
  function NewRow(m: Memory): Row {
    Row(m, SearchText(m), 0, None)
  }

  /** `INSERT INTO memories ...`; None when the PRIMARY KEY constraint
      rejects it. An accepted INSERT makes the new id find the new row and
      changes what no other id finds. */
  function Insert(t: Table, m: Memory): (r: Option<Table>)
    ensures r.None? <==> Find(t, m.id).Some?
    ensures r.Some? ==> r.value == t + [NewRow(m)]
    ensures r.Some? ==> Find(r.value, m.id) == Some(NewRow(m))
    ensures r.Some? ==> forall id :: id != m.id ==> Find(r.value, id) == Find(t, id)
  {
    if Find(t, m.id).Some? then None
    else
      FindAppended(t, NewRow(m));
      Some(t + [NewRow(m)])
  }

  lemma InsertKeepsWellFormed(t: Table, m: Memory)
    requires WellFormed(t)
    requires Insert(t, m).Some?
    ensures WellFormed(Insert(t, m).value)
  {
    var t' := t + [NewRow(m)];
    forall i, j | 0 <= i < j < |t'| ensures t'[i].record.id != t'[j].record.id {
      if j == |t| {
        assert t'[i] in t;
      }
    }
  }

  /** A row appended under an id the table lacks is what that id then finds;
      every other id finds what it found before. */
  lemma {:induction false} FindAppended(t: Table, row: Row)
    requires Find(t, row.record.id).None?
    ensures Find(t + [row], row.record.id) == Some(row)
    ensures forall id :: id != row.record.id ==> Find(t + [row], id) == Find(t, id)
  {
    if |t| > 0 {
      assert (t + [row])[1..] == t[1..] + [row];
      FindAppended(t[1..], row);
    }
  }

  /** The row an `UPDATE memories SET content, updated_at, project, directory,
      tags, metadata, search_text WHERE id = ?` leaves: `user_id`,
      `created_at`, `use_count` and `last_used` keep their stored values. */
  function Overwrite(row: Row, m: Memory): Row {
    Row(row.record.(content := m.content, updatedAt := m.updatedAt, project := m.project,
                    directory := m.directory, tags := m.tags, metadata := m.metadata),
        SearchText(m), row.useCount, row.lastUsed)
  }

  /** The UPDATE applied to every row whose id is `m.id` (none, if absent). */
  function UpdateRows(t: Table, m: Memory): (r: Table)
    ensures |r| == |t|
    ensures forall i :: 0 <= i < |t| ==>
              r[i] == if t[i].record.id == m.id then Overwrite(t[i], m) else t[i]
  {
    if |t| == 0 then []
    else [if t[0].record.id == m.id then Overwrite(t[0], m) else t[0]] + UpdateRows(t[1..], m)
  }

  lemma {:induction false} FindAfterUpdate(t: Table, m: Memory, id: Id)
    ensures Find(UpdateRows(t, m), id) ==
            if id == m.id && Find(t, id).Some? then Some(Overwrite(Find(t, id).value, m))
            else Find(t, id)
  {
    if |t| > 0 {
      assert UpdateRows(t, m)[1..] == UpdateRows(t[1..], m);
      FindAfterUpdate(t[1..], m, id);
    }
  }

  lemma UpdateKeepsWellFormed(t: Table, m: Memory)
    requires WellFormed(t)
    ensures WellFormed(UpdateRows(t, m))
  {
  }

  /** The row after `SET use_count = use_count + 1, last_used = ?`. */
  function Bumped(row: Row, now: Timestamp): Row {
    row.(useCount := row.useCount + 1, lastUsed := Some(now))
  }

  /** `UPDATE memories SET use_count = use_count + 1, last_used = ? WHERE id = ?`. */
  function TouchRows(t: Table, id: Id, now: Timestamp): (r: Table)
    ensures |r| == |t|
    ensures forall i :: 0 <= i < |t| ==>
              r[i] == if t[i].record.id == id then Bumped(t[i], now) else t[i]
  {
    if |t| == 0 then []
    else [if t[0].record.id == id then Bumped(t[0], now) else t[0]] + TouchRows(t[1..], id, now)
  }

  lemma {:induction false} FindAfterTouch(t: Table, id: Id, now: Timestamp, other: Id)
    ensures Find(TouchRows(t, id, now), other) ==
            if other == id && Find(t, other).Some? then Some(Bumped(Find(t, other).value, now))
            else Find(t, other)
  {
    if |t| > 0 {
      assert TouchRows(t, id, now)[1..] == TouchRows(t[1..], id, now);
      FindAfterTouch(t[1..], id, now, other);
    }
  }

  lemma TouchKeepsWellFormed(t: Table, id: Id, now: Timestamp)
    requires WellFormed(t)
    ensures WellFormed(TouchRows(t, id, now))
  {
  }

  /** `DELETE FROM memories WHERE id = ?`: the other rows, in their order. */
  function DeleteRows(t: Table, id: Id): (r: Table)
    ensures |r| <= |t|
    ensures forall row :: row in r <==> row in t && row.record.id != id
    ensures IsSublist(r, t)
  {
    if |t| == 0 then []
    else
      var rest := DeleteRows(t[1..], id);
      assert t == [t[0]] + t[1..];
      if t[0].record.id == id then
        SublistCons(rest, t[0], t[1..]);
        rest
      else
        assert ([t[0]] + rest)[1..] == rest;
        [t[0]] + rest
  }

  lemma {:induction false} FindAfterDelete(t: Table, id: Id, other: Id)
    ensures Find(DeleteRows(t, id), other) == if other == id then None else Find(t, other)
  {
    if |t| > 0 {
      FindAfterDelete(t[1..], id, other);
    }
  }

  /** Deleting an absent id changes nothing; so a second delete is harmless. */
  lemma {:induction false} DeleteIdempotent(t: Table, id: Id)
    ensures Find(t, id).None? ==> DeleteRows(t, id) == t
    ensures DeleteRows(DeleteRows(t, id), id) == DeleteRows(t, id)
  {
    if |t| > 0 {
      DeleteIdempotent(t[1..], id);
      if t[0].record.id != id {
        assert [t[0]] + t[1..] == t;
        assert ([t[0]] + DeleteRows(t[1..], id))[1..] == DeleteRows(t[1..], id);
      }
    }
  }

  lemma {:induction false} DeleteKeepsWellFormed(t: Table, id: Id)
    requires WellFormed(t)
    ensures WellFormed(DeleteRows(t, id))
  {
    if |t| > 0 {
      assert [t[0]] + t[1..] == t;
      DistinctCons(t[0], t[1..]);
      DeleteKeepsWellFormed(t[1..], id);
      if t[0].record.id != id {
        DistinctCons(t[0], DeleteRows(t[1..], id));
        var r := DeleteRows(t, id);
        forall i | 0 <= i < |r| ensures r[i].searchText == SearchText(r[i].record) {
          assert r[i] in t;
        }
      } else {
        var r := DeleteRows(t, id);
        forall i | 0 <= i < |r| ensures r[i].searchText == SearchText(r[i].record) {
          assert r[i] in t;
        }
      }
    }
  }

  /** SQLite's `LIMIT n`: a negative limit means no limit. */
  function SqlLimit<T>(s: seq<T>, limit: int): (r: seq<T>)
    ensures limit < 0 ==> r == s
    ensures 0 <= limit ==> |r| == if limit < |s| then limit else |s|
    ensures r <= s
  {
    if limit < 0 || limit >= |s| then s else s[..limit]
  }
}

=== FILE: engine.dfy ===
/** MemoryEngine: the durable table, the optional Redis tier, the
    process-local cache, the fuzzy collection, the search-result cache, the
    hit/miss counters and the latency windows, and the operations that move
    records between them. Every operation runs to completion before the next
    starts; I/O outcomes (clock, fresh id, storage and Redis faults, the
    fuzzy matcher's and the full-text index's answers) arrive as parameters. */
module Engine {
  import opened Records
  import opened DurableStore
  import opened Listings
  import opened SearchPipeline
  import opened Metrics
  import opened Sublists

  /** The tier a getMemory call is answered from. */
  datatype Tier = LocalCache | RedisCache | Database

  datatype Answer = Answer(tier: Tier, found: Option<Memory>)

  datatype Fault = DuplicateId | StorageFault

  datatype Result<T> = Ok(value: T) | Err(fault: Fault)

  datatype Status = Completed | Failed(fault: Fault)

  /** The integer part of getCacheStats. */
  datatype CacheCounters = CacheCounters(hits: nat, misses: nat, size: nat)

  /** The `memory:<id>` entries of Redis. */
  type RedisStore = map<Id, Memory>

  const OpDbInit := "db_init"
  const OpCacheLoad := "cache_load"
  const OpAdd := "add_memory"
  const OpGetCache := "get_memory_cache"
  const OpGetRedis := "get_memory_redis"
  const OpGetDb := "get_memory_db"
  const OpSearchCache := "search_cache"
  const OpSearch := "search"
  const OpGetRecent := "get_recent"
  const OpGetAll := "get_all"
  const OpGetPopular := "get_popular"
  const OpUpdate := "update_memory"
  const OpDelete := "delete_memory"

  /** The tiers getMemory consults, in order: the local cache, then Redis
      (a failing `get` is caught and ignored), then the table (a failing read
      yields null). */
  function Lookup(cache: map<Id, Memory>, redis: Option<RedisStore>, redisGetFails: bool,
                  table: Table, dbReadFails: bool, id: Id): Answer
  {
    if id in cache then Answer(LocalCache, Some(cache[id]))
    else if redis.Some? && !redisGetFails && id in redis.value then Answer(RedisCache, Some(redis.value[id]))
    else if dbReadFails then Answer(Database, None)
    else
      var row := Find(table, id);
      Answer(Database, if row.Some? then Some(ParseRow(row.value)) else None)
  }

  function TierOp(tier: Tier): string {
    match tier
    case LocalCache => OpGetCache
    case RedisCache => OpGetRedis
    case Database => OpGetDb
  }

  /** The local cache after getMemory: a record found below it is copied in. */
  function Backfill(cache: map<Id, Memory>, a: Answer, id: Id): map<Id, Memory> {
    if a.tier != LocalCache && a.found.Some? then cache[id := a.found.value] else cache
  }

  /** Redis after getMemory: a record read from the table is written back. */
  function RedisBackfill(redis: Option<RedisStore>, a: Answer, id: Id): Option<RedisStore> {
    if a.tier == Database && a.found.Some? && redis.Some? then Some(redis.value[id := a.found.value])
    else redis
  }

  /** updateFuseIndex: an existing index is reset to the local cache's records. */
  function Rebuilt(fuse: Option<map<Id, Memory>>, cache: map<Id, Memory>): Option<map<Id, Memory>> {
    if fuse.Some? then Some(cache) else None
  }

  /** Each Redis entry is the table's current record for its id. */
  predicate RedisAgrees(redis: RedisStore, t: Table) {
    forall k :: k in redis ==> Find(t, k).Some? && Find(t, k).value.record == redis[k]
  }

  /** Without a read fault, getMemory answers null exactly when the id is in
      no tier it consulted; a cache answer is the cached record. */
  lemma LookupFindsPresentRecords(cache: map<Id, Memory>, redis: Option<RedisStore>, redisGetFails: bool,
                                  t: Table, id: Id)
    ensures var a := Lookup(cache, redis, redisGetFails, t, false, id);
            && (a.found.None? <==>
                  id !in cache && !(redis.Some? && !redisGetFails && id in redis.value) && Find(t, id).None?)
            && (id in cache ==> a == Answer(LocalCache, Some(cache[id])))
            && (a.tier == Database && a.found.Some? ==> a.found.value.id == id && Find(t, id).Some?)
  {
  }

  /** A Redis tier that agrees with the table changes no answer of getMemory:
      with it, without it, or with its reads failing, the record is the same. */
  lemma RedisIsTransparent(cache: map<Id, Memory>, redis: RedisStore, redisGetFails: bool, t: Table, id: Id)
    requires RedisAgrees(redis, t)
    ensures Lookup(cache, Some(redis), redisGetFails, t, false, id).found
            == Lookup(cache, None, false, t, false, id).found
  {
  }

  /** A Redis tier holding only ids the local cache also holds is never
      consulted: getMemory answers the same with it, without it, and whether
      or not its reads fail. */
  lemma RedisBehindCacheIsTransparent(cache: map<Id, Memory>, redis: RedisStore, redisGetFails: bool,
                                      t: Table, dbReadFails: bool, id: Id)
    requires redis.Keys <= cache.Keys
    ensures Lookup(cache, Some(redis), redisGetFails, t, dbReadFails, id) == Lookup(cache, None, false, t, dbReadFails, id)
    ensures Lookup(cache, Some(redis), redisGetFails, t, dbReadFails, id).tier != RedisCache
  {
  }

  /** The local cache filled from records in order; a later record wins. */
  function CacheAll(cache: map<Id, Memory>, ms: seq<Memory>): (r: map<Id, Memory>)
    ensures r.Keys == cache.Keys + set m | m in ms :: m.id
    decreases |ms|
  {
    if |ms| == 0 then cache
    else
      var last := ms[|ms| - 1];
      var r := CacheAll(cache, ms[..|ms| - 1])[last.id := last];
      assert forall m :: m in ms <==> m in ms[..|ms| - 1] || m == last;
      r
  }

  /** `memories.forEach(memory => memoryCache.set(memory.id, memory))`. */
  method SetAll(cache: map<Id, Memory>, ms: seq<Memory>) returns (r: map<Id, Memory>)
    ensures r == CacheAll(cache, ms)
  {
    r := cache;
    for i := 0 to |ms|
      invariant r == CacheAll(cache, ms[..i])
    {
      assert ms[..i + 1][..i] == ms[..i];
      r := r[ms[i].id := ms[i]];
    }
    assert ms[..|ms|] == ms;
  }

  lemma {:induction false} CacheAllFrom(ms: seq<Memory>)
    ensures forall k :: k in CacheAll(map[], ms) ==> CacheAll(map[], ms)[k] in ms && CacheAll(map[], ms)[k].id == k
    decreases |ms|
  {
    if |ms| > 0 {
      CacheAllFrom(ms[..|ms| - 1]);
      assert forall m :: m in ms[..|ms| - 1] ==> m in ms;
    }
  }

  /** The warm load reads at most 1000 records, every one of them the
      table's current record for its id, so the cache starts out agreeing
      with the table. */
  lemma WarmLoadAgrees(t: Table, now: Timestamp)
    requires WellFormed(t)
    ensures var warm := List(Warm(now), t, WarmLoadCap);
            && |warm| <= WarmLoadCap
            && forall k :: k in CacheAll(map[], warm) ==>
                 Find(t, k).Some? && Find(t, k).value.record == CacheAll(map[], warm)[k]
  {
    var rows := Scan(Warm(now), t, WarmLoadCap);
    var warm := List(Warm(now), t, WarmLoadCap);
    ScanIsSortedSelection(Warm(now), t, WarmLoadCap);
    CacheAllFrom(warm);
    forall k | k in CacheAll(map[], warm)
      ensures Find(t, k).Some? && Find(t, k).value.record == CacheAll(map[], warm)[k]
    {
      var m := CacheAll(map[], warm)[k];
      var i :| 0 <= i < |warm| && warm[i] == m;
      assert rows[i] in rows;
      FindUnique(t, rows[i]);
    }
  }

  /** incrementUseCount bumps the cached record's metadata but only the
      use_count and last_used columns of its row: a cached record that
      equalled the table's stops equalling it. */
  lemma IncrementDivergesFromTable(t: Table, m: Memory, now: Timestamp)
    requires Find(t, m.id).Some? && Find(t, m.id).value.record == m
    ensures Find(TouchRows(t, m.id, now), m.id).Some?
    ensures Find(TouchRows(t, m.id, now), m.id).value.record == m
    ensures Touched(m, now) != m
  {
    FindAfterTouch(t, m.id, now, m.id);
  }

  /** Every list held by the search-result cache satisfies the filters of
      the options it is held under, and is no longer than their limit. */
  ghost predicate CachedResultsMatch(cache: map<SearchKey, seq<Memory>>) {
    forall key :: key in cache ==>
      && (forall m :: m in cache[key] ==> Matches(key.options, m))
      && (EffectiveLimit(key.options) > 0 ==> |cache[key]| <= EffectiveLimit(key.options))
  }

  /** A freshly computed search result satisfies the filters, is no longer
      than the limit, keeps the candidates' order, and holds only records the
      fuzzy index was built from (fuzzy path) or records stored in the table
      (full-text path). */
  lemma RefinedResults(options: SearchOptions, fuse: Option<map<Id, Memory>>, fuzzyHits: seq<Memory>,
                       ftsRanked: seq<Row>, t: Table)
    requires fuse.Some? ==> forall m :: m in fuzzyHits ==> m in fuse.value.Values
    requires forall row :: row in ftsRanked ==> row in t
    ensures var candidates := Candidates(options, fuse.Some?, fuzzyHits, ftsRanked);
            var results := Refine(options, candidates);
            && (forall m :: m in results ==> Matches(options, m))
            && (EffectiveLimit(options) > 0 ==> |results| <= EffectiveLimit(options))
            && IsSublist(results, candidates)
            && (UsesFuzzy(options, fuse.Some?) ==> forall m :: m in results ==> m in fuse.value.Values)
            && (!UsesFuzzy(options, fuse.Some?) ==> forall m :: m in results ==> exists row :: row in t && row.record == m)
  {
    var candidates := Candidates(options, fuse.Some?, fuzzyHits, ftsRanked);
    RefineIsFilteredPrefix(options, candidates);
    RefineLength(options, candidates);
    FullTextSearchBounded(options, ftsRanked);
  }

  class MemoryEngine {
    var table: Table
    var redis: Option<RedisStore>
    /** The fuzzy index's collection; None while no index has been built. */
    var fuse: Option<map<Id, Memory>>
    var memoryCache: map<Id, Memory>
    var searchCache: map<SearchKey, seq<Memory>>
    var hits: nat
    var misses: nat
    var size: nat
    var operationTimes: Samples

    /** The table is well formed, the timing window is bounded, and every
        cached search result satisfies the filters of the options it was
        cached under. */
    ghost predicate Valid()
      reads this
    {
      && WellFormed(table)
      && Bounded(operationTimes)
      && CachedResultsMatch(searchCache)
    }

    /** Every id Redis holds, the local cache holds too: each Redis write
        follows a local-cache write of the same id, and each Redis delete a
        local-cache delete. */
    ghost predicate RedisBehindCache()
      reads this
    {
      redis.Some? ==> redis.value.Keys <= memoryCache.Keys
    }

    /** The constructor: opens the stored table with Redis connected or not
        (a failed connection leaves it disabled). Schema setup and the warm
        load finish later, in CompleteInitialization. */
    constructor Open(stored: Table, connected: Option<RedisStore>)
      requires WellFormed(stored)
      ensures Valid()
      ensures table == stored && redis == connected && fuse == None
      ensures memoryCache == map[] && searchCache == map[]
      ensures hits == 0 && misses == 0 && size == 0 && operationTimes == map[]
      ensures connected.None? || connected.value == map[] ==> RedisBehindCache()
    {
      table := stored;
      redis := connected;
      fuse := None;
      memoryCache := map[];
      searchCache := map[];
      hits, misses, size := 0, 0, 0;
      operationTimes := map[];
    }

    /** The continuation of initializeDatabase: records `db_init`, then runs
        the warm load. */
    method CompleteInitialization(now: Timestamp, loadFails: bool, initTime: real, loadTime: real)
      requires Valid()
      modifies this`memoryCache, this`fuse, this`size, this`operationTimes
      ensures Valid()
      ensures old(RedisBehindCache()) ==> RedisBehindCache()
      ensures loadFails ==> memoryCache == old(memoryCache) && fuse == old(fuse) && size == old(size)
                            && operationTimes == Record(old(operationTimes), OpDbInit, initTime)
      ensures !loadFails ==>
                var warm := List(Warm(now), table, WarmLoadCap);
                && memoryCache == CacheAll(old(memoryCache), warm)
                && fuse == Some(CacheAll(map[], warm))
                && size == |warm|
                && operationTimes == Record(Record(old(operationTimes), OpDbInit, initTime), OpCacheLoad, loadTime)
    {
      RecordOperation(OpDbInit, initTime);
      LoadMemoriesIntoCache(now, loadFails, loadTime);
    }

    /** recordOperation. */
    method RecordOperation(op: string, elapsed: real)
      requires Valid()
      modifies this`operationTimes
      ensures Valid()
      ensures operationTimes == Record(old(operationTimes), op, elapsed)
    {
      RecordKeepsBounded(operationTimes, op, elapsed);
      var times := if op in operationTimes then operationTimes[op] else [];
      times := times + [elapsed];
      if |times| > WindowSize {
        times := times[1..];
      }
      operationTimes := operationTimes[op := times];
    }

    /** loadMemoriesIntoCache: the warm-load query, each record put into the
        local cache in order, a fuzzy index built over them, and `size` set.
        When the query fails nothing changes. */
    method LoadMemoriesIntoCache(now: Timestamp, loadFails: bool, elapsed: real)
      requires Valid()
      modifies this`memoryCache, this`fuse, this`size, this`operationTimes
      ensures Valid()
      ensures old(RedisBehindCache()) ==> RedisBehindCache()
      ensures loadFails ==> memoryCache == old(memoryCache) && fuse == old(fuse) && size == old(size)
                            && operationTimes == old(operationTimes)
      ensures !loadFails ==>
                var warm := List(Warm(now), old(table), WarmLoadCap);
                && memoryCache == CacheAll(old(memoryCache), warm)
                && fuse == Some(CacheAll(map[], warm))
                && size == |warm|
                && operationTimes == Record(old(operationTimes), OpCacheLoad, elapsed)
    {
      if !loadFails {
        var memories := List(Warm(now), table, WarmLoadCap);
        InstallWarm(memories, elapsed);
      }
    }

    /** The success path of the warm load, given the loaded records. */
    method InstallWarm(memories: seq<Memory>, elapsed: real)
      requires Valid()
      modifies this`memoryCache, this`fuse, this`size, this`operationTimes
      ensures Valid()
      ensures old(RedisBehindCache()) ==> RedisBehindCache()
      ensures memoryCache == CacheAll(old(memoryCache), memories)
      ensures fuse == Some(CacheAll(map[], memories))
      ensures size == |memories|
      ensures operationTimes == Record(old(operationTimes), OpCacheLoad, elapsed)
    {
      memoryCache := SetAll(memoryCache, memories);
      fuse := Some(CacheAll(map[], memories));
      size := |memories|;
      RecordOperation(OpCacheLoad, elapsed);
    }

    /** addMemory: builds the record, inserts it (a duplicate id or a storage
        fault rejects the call before anything else changes), then writes it
        through to the local cache and Redis, clears the search-result cache
        and rebuilds the fuzzy collection. */
    method AddMemory(draft: Draft, id: Id, now: Timestamp, storageFault: bool, elapsed: real)
      returns (r: Result<Id>)
      requires Valid()
      modifies this
      ensures Valid()
      ensures old(RedisBehindCache()) ==> RedisBehindCache()
      ensures hits == old(hits) && misses == old(misses) && size == old(size)
      ensures Find(old(table), id).Some? ==> r == Err(DuplicateId)
      ensures Find(old(table), id).None? && storageFault ==> r == Err(StorageFault)
      ensures Find(old(table), id).None? && !storageFault ==> r == Ok(id)
      ensures r.Err? ==>
                && table == old(table) && memoryCache == old(memoryCache) && redis == old(redis)
                && searchCache == old(searchCache) && fuse == old(fuse) && operationTimes == old(operationTimes)
      ensures r.Ok? ==>
                var rec := NewRecord(draft, id, now);
                && r.value == id
                && Find(old(table), id).None? && !storageFault
                && table == old(table) + [NewRow(rec)]
                && Find(table, id) == Some(NewRow(rec))
                && memoryCache == old(memoryCache)[id := rec]
                && searchCache == map[]
                && fuse == Rebuilt(old(fuse), memoryCache)
                && redis == (if old(redis).Some? then Some(old(redis).value[id := rec]) else None)
                && operationTimes == Record(old(operationTimes), OpAdd, elapsed)
    {
      var rec := NewRecord(draft, id, now);
      var inserted := Insert(table, rec);
      if inserted.None? {
        return Err(DuplicateId);
      }
      if storageFault {
        return Err(StorageFault);
      }
      InsertKeepsWellFormed(table, rec);
      table := inserted.value;
      memoryCache := memoryCache[id := rec];
      searchCache := map[];
      if fuse.Some? {
        fuse := Some(memoryCache);
      }
      if redis.Some? {
        redis := Some(redis.value[id := rec]);
      }
      RecordOperation(OpAdd, elapsed);
      return Ok(id);
    }

    /** getMemory: answers from the first tier holding the id (see Lookup);
        a local-cache or Redis answer counts as a hit, a table answer or
        null as a miss. A record found below the local cache is copied into
        it, and one read from the table also into Redis; the fuzzy collection
        and the search-result cache are left as they were. */
    method GetMemory(id: Id, redisGetFails: bool, dbReadFails: bool, elapsed: real) returns (m: Option<Memory>)
      requires Valid()
      modifies this`memoryCache, this`redis, this`hits, this`misses, this`operationTimes
      ensures Valid()
      ensures old(RedisBehindCache()) ==> RedisBehindCache()
      ensures var a := Lookup(old(memoryCache), old(redis), redisGetFails, old(table), dbReadFails, id);
              && m == a.found
              && memoryCache == Backfill(old(memoryCache), a, id)
              && redis == RedisBackfill(old(redis), a, id)
              && (a.tier == Database ==> hits == old(hits) && misses == old(misses) + 1)
              && (a.tier != Database ==> hits == old(hits) + 1 && misses == old(misses))
              && operationTimes == Record(old(operationTimes), TierOp(a.tier), elapsed)
    {
      if id in memoryCache {
        m := Some(memoryCache[id]);
        hits := hits + 1;
        RecordOperation(OpGetCache, elapsed);
        return;
      }
      if redis.Some? && !redisGetFails && id in redis.value {
        var cached := redis.value[id];
        memoryCache := memoryCache[id := cached];
        hits := hits + 1;
        RecordOperation(OpGetRedis, elapsed);
        return Some(cached);
      }
      var row := if dbReadFails then None else Find(table, id);
      m := if row.Some? then Some(ParseRow(row.value)) else None;
      if m.Some? {
        memoryCache := memoryCache[id := m.value];
        if redis.Some? {
          redis := Some(redis.value[id := m.value]);
        }
      }
      misses := misses + 1;
      RecordOperation(OpGetDb, elapsed);
    }

    /** searchMemories: a cached result for the same query and options is
        returned as stored (a hit); otherwise the candidates are filtered
        and limited, stored under the key, and returned (a miss). */
    method SearchMemories(query: string, options: SearchOptions, fuzzyHits: seq<Memory>, ftsRanked: seq<Row>,
                          elapsed: real) returns (results: seq<Memory>)
      requires Valid()
      requires fuse.Some? ==> forall m :: m in fuzzyHits ==> m in fuse.value.Values
      requires forall row :: row in ftsRanked ==> row in table
      modifies this`searchCache, this`hits, this`misses, this`operationTimes
      ensures Valid()
      ensures table == old(table) && redis == old(redis) && fuse == old(fuse)
      ensures memoryCache == old(memoryCache) && size == old(size)
      ensures forall m :: m in results ==> Matches(options, m)
      ensures EffectiveLimit(options) > 0 ==> |results| <= EffectiveLimit(options)
      ensures var key := SearchKey(query, options);
              key in old(searchCache) ==>
                && results == old(searchCache)[key]
                && searchCache == old(searchCache)
                && hits == old(hits) + 1 && misses == old(misses)
                && operationTimes == Record(old(operationTimes), OpSearchCache, elapsed)
      ensures var key := SearchKey(query, options);
              var candidates := Candidates(options, old(fuse).Some?, fuzzyHits, ftsRanked);
              key !in old(searchCache) ==>
                && results == Refine(options, candidates)
                && IsSublist(results, candidates)
                && searchCache == old(searchCache)[key := results]
                && hits == old(hits) && misses == old(misses) + 1
                && operationTimes == Record(old(operationTimes), OpSearch, elapsed)
      ensures SearchKey(query, options) !in old(searchCache) && UsesFuzzy(options, old(fuse).Some?) ==>
                forall m :: m in results ==> m in old(fuse).value.Values
      ensures SearchKey(query, options) !in old(searchCache) && !UsesFuzzy(options, old(fuse).Some?) ==>
                forall m :: m in results ==> exists row :: row in table && row.record == m
    {
      var key := SearchKey(query, options);
      if key in searchCache {
        results := searchCache[key];
        hits := hits + 1;
        RecordOperation(OpSearchCache, elapsed);
        return;
      }
      var candidates := if options.fuzzy != Some(false) && fuse.Some? then fuzzyHits
                        else FullTextSearch(options, ftsRanked);
      RefinedResults(options, fuse, fuzzyHits, ftsRanked, table);
      results := Refine(options, candidates);
      searchCache := searchCache[key := results];
      misses := misses + 1;
      RecordOperation(OpSearch, elapsed);
    }

    /** The shared shape of the three list queries: a failing query yields
        no records and records no sample. */
    method RunListing(o: Ordering, limit: int, dbReadFails: bool, op: string, elapsed: real)
      returns (ms: seq<Memory>)
      requires Valid()
      modifies this`operationTimes
      ensures Valid()
      ensures dbReadFails ==> ms == [] && operationTimes == old(operationTimes)
      ensures !dbReadFails ==> ms == List(o, table, limit) && operationTimes == Record(old(operationTimes), op, elapsed)
    {
      if dbReadFails {
        return [];
      }
      ms := List(o, table, limit);
      RecordOperation(op, elapsed);
    }

    /** getRecentMemories: by last use, or creation when never used, newest first. */
    method GetRecentMemories(dbReadFails: bool, elapsed: real, limit: int := 20) returns (ms: seq<Memory>)
      requires Valid()
      modifies this`operationTimes
      ensures Valid()
      ensures dbReadFails ==> ms == [] && operationTimes == old(operationTimes)
      ensures !dbReadFails ==> ms == List(Recent, table, limit)
                               && operationTimes == Record(old(operationTimes), OpGetRecent, elapsed)
    {
      ms := RunListing(Recent, limit, dbReadFails, OpGetRecent, elapsed);
    }

    /** getAllMemories: newest created first. */
    method GetAllMemories(dbReadFails: bool, elapsed: real, limit: int := 100) returns (ms: seq<Memory>)
      requires Valid()
      modifies this`operationTimes
      ensures Valid()
      ensures dbReadFails ==> ms == [] && operationTimes == old(operationTimes)
      ensures !dbReadFails ==> ms == List(Created, table, limit)
                               && operationTimes == Record(old(operationTimes), OpGetAll, elapsed)
    {
      ms := RunListing(Created, limit, dbReadFails, OpGetAll, elapsed);
    }

    /** getPopularMemories: used records only, most used first, then most recently used. */
    method GetPopularMemories(dbReadFails: bool, elapsed: real, limit: int := 20) returns (ms: seq<Memory>)
      requires Valid()
      modifies this`operationTimes
      ensures Valid()
      ensures dbReadFails ==> ms == [] && operationTimes == old(operationTimes)
      ensures !dbReadFails ==> ms == List(Popular, table, limit)
                               && operationTimes == Record(old(operationTimes), OpGetPopular, elapsed)
    {
      ms := RunListing(Popular, limit, dbReadFails, OpGetPopular, elapsed);
    }

    /** incrementUseCount: bumps the table's use_count and last_used columns,
        and the cached record's metadata when the id is cached (writing that
        record to Redis too); the search-result cache, the fuzzy collection
        and the counters are untouched. */
    method IncrementUseCount(id: Id, now: Timestamp)
      requires Valid()
      modifies this
      ensures Valid()
      ensures old(RedisBehindCache()) ==> RedisBehindCache()
      ensures table == TouchRows(old(table), id, now)
      ensures id in old(memoryCache) ==>
                var touched := Touched(old(memoryCache)[id], now);
                && memoryCache == old(memoryCache)[id := touched]
                && redis == (if old(redis).Some? then Some(old(redis).value[id := touched]) else None)
      ensures id !in old(memoryCache) ==> memoryCache == old(memoryCache) && redis == old(redis)
      ensures searchCache == old(searchCache) && fuse == old(fuse)
      ensures hits == old(hits) && misses == old(misses) && size == old(size)
      ensures operationTimes == old(operationTimes)
    {
      TouchKeepsWellFormed(table, id, now);
      table := TouchRows(table, id, now);
      if id in memoryCache {
        var touched := Touched(memoryCache[id], now);
        memoryCache := memoryCache[id := touched];
        if redis.Some? {
          redis := Some(redis.value[id := touched]);
        }
      }
    }

    /** updateMemory: reads the record through getMemory (with all its
        effects); when there is none, stops. Otherwise merges the update over
        it with a fresh updated_at, writes it to the table (a storage fault
        rejects the call here), then to the local cache and Redis, clears the
        search-result cache and rebuilds the fuzzy collection. */
    method UpdateMemory(id: Id, patch: Patch, now: Timestamp, redisGetFails: bool, dbReadFails: bool,
                        storageFault: bool, getElapsed: real, elapsed: real) returns (r: Status)
      requires Valid()
      modifies this
      ensures Valid()
      ensures old(RedisBehindCache()) ==> RedisBehindCache()
      ensures size == old(size)
      ensures var a := Lookup(old(memoryCache), old(redis), redisGetFails, old(table), dbReadFails, id);
              && (a.tier == Database ==> hits == old(hits) && misses == old(misses) + 1)
              && (a.tier != Database ==> hits == old(hits) + 1 && misses == old(misses))
      ensures var a := Lookup(old(memoryCache), old(redis), redisGetFails, old(table), dbReadFails, id);
              var afterGet := Record(old(operationTimes), TierOp(a.tier), getElapsed);
              a.found.None? || storageFault ==>
                && r == (if a.found.None? then Completed else Failed(StorageFault))
                && table == old(table)
                && memoryCache == Backfill(old(memoryCache), a, id)
                && redis == RedisBackfill(old(redis), a, id)
                && searchCache == old(searchCache) && fuse == old(fuse)
                && operationTimes == afterGet
      ensures var a := Lookup(old(memoryCache), old(redis), redisGetFails, old(table), dbReadFails, id);
              var afterGet := Record(old(operationTimes), TierOp(a.tier), getElapsed);
              a.found.Some? && !storageFault ==>
                var updated := Merge(a.found.value, patch, now);
                && r == Completed
                && table == UpdateRows(old(table), updated)
                && memoryCache == old(memoryCache)[id := updated]
                && searchCache == map[]
                && fuse == Rebuilt(old(fuse), memoryCache)
                && redis == (if old(redis).Some? then Some(old(redis).value[id := updated]) else None)
                && operationTimes == Record(afterGet, OpUpdate, elapsed)
    {
      ghost var a := Lookup(memoryCache, redis, redisGetFails, table, dbReadFails, id);
      ghost var cache0, redis0 := memoryCache, redis;
      var found := GetMemory(id, redisGetFails, dbReadFails, getElapsed);
      assert found == a.found;
      if found.None? {
        return Completed;
      }
      var updated := Merge(found.value, patch, now);
      // getMemory's backfill is overwritten by the update.
      assert memoryCache[id := updated] == cache0[id := updated];
      assert redis.Some? <==> redis0.Some?;
      assert redis.Some? ==> redis.value[id := updated] == redis0.value[id := updated];
      if storageFault {
        return Failed(StorageFault);
      }
      WriteThrough(id, updated, elapsed);
      return Completed;
    }

    /** The tail of updateMemory once the record is known: the table UPDATE,
        the local cache and Redis entries, the search-result cache and the
        fuzzy collection. The caches are keyed by the requested id; the
        UPDATE matches the merged record's id. */
    method WriteThrough(id: Id, updated: Memory, elapsed: real)
      requires Valid()
      modifies this
      ensures Valid()
      ensures old(RedisBehindCache()) ==> RedisBehindCache()
      ensures hits == old(hits) && misses == old(misses) && size == old(size)
      ensures table == UpdateRows(old(table), updated)
      ensures memoryCache == old(memoryCache)[id := updated]
      ensures searchCache == map[] && fuse == Rebuilt(old(fuse), memoryCache)
      ensures redis == (if old(redis).Some? then Some(old(redis).value[id := updated]) else None)
      ensures operationTimes == Record(old(operationTimes), OpUpdate, elapsed)
    {
      UpdateKeepsWellFormed(table, updated);
      table := UpdateRows(table, updated);
      memoryCache := memoryCache[id := updated];
      searchCache := map[];
      if fuse.Some? {
        fuse := Some(memoryCache);
      }
      if redis.Some? {
        redis := Some(redis.value[id := updated]);
      }
      RecordOperation(OpUpdate, elapsed);
    }

    /** deleteMemory: removes the id from the table, the local cache and
        Redis, clears the search-result cache and rebuilds the fuzzy
        collection; an absent id is not an error. */
    method DeleteMemory(id: Id, elapsed: real)
      requires Valid()
      modifies this
      ensures Valid()
      ensures old(RedisBehindCache()) ==> RedisBehindCache()
      ensures table == DeleteRows(old(table), id) && Find(table, id).None?
      ensures memoryCache == old(memoryCache) - {id}
      ensures redis == (if old(redis).Some? then Some(old(redis).value - {id}) else None)
      ensures searchCache == map[] && fuse == Rebuilt(old(fuse), memoryCache)
      ensures hits == old(hits) && misses == old(misses) && size == old(size)
      ensures operationTimes == Record(old(operationTimes), OpDelete, elapsed)
    {
      DeleteKeepsWellFormed(table, id);
      FindAfterDelete(table, id, id);
      table := DeleteRows(table, id);
      memoryCache := memoryCache - {id};
      searchCache := map[];
      if fuse.Some? {
        fuse := Some(memoryCache);
      }
      if redis.Some? {
        redis := Some(redis.value - {id});
      }
      RecordOperation(OpDelete, elapsed);
    }

    /** The counters of getCacheStats. `size` is set by the warm load only. */
    method GetCacheStats() returns (s: CacheCounters)
      ensures s == CacheCounters(hits, misses, size)
    {
      s := CacheCounters(hits, misses, size);
    }

    /** The `count` of each operation in getPerformanceStats. */
    method GetPerformanceCounts() returns (counts: map<string, nat>)
      requires Valid()
      ensures counts.Keys == operationTimes.Keys
      ensures forall op :: op in counts ==> counts[op] == |operationTimes[op]| <= WindowSize
    {
      counts := Counts(operationTimes);
    }
  }
}

=== FILE: listings.dfy ===
/** The ordered scans of the `memories` table: recent, all, popular, and the
    warm load that fills the process-local cache at startup. Each is a
    filter, a descending sort on a two-part rank, and a LIMIT. SQL leaves the
    order of equal ranks open; the sort here keeps one admissible order. */
module Listings {
  import opened Records
  import opened DurableStore

  /** A sort key compared lexicographically: `major` first, then `minor`. */
  datatype Rank = Rank(major: int, minor: int)

  predicate AtMost(a: Rank, b: Rank) {
    a.major < b.major || (a.major == b.major && a.minor <= b.minor)
  }

  datatype Ordering =
    | Recent          // ORDER BY coalesce(last_used, created_at) DESC
    | Created         // ORDER BY created_at DESC
    | Popular         // WHERE use_count > 0 ORDER BY use_count DESC, last_used DESC
    | Warm(now: Timestamp)  // ORDER BY (recently used ? use_count : 0) DESC, last_used DESC

  /** Seven days, in milliseconds: the warm load's "recently used" window. */
  const WarmWindow: nat := 7 * 24 * 60 * 60 * 1000

  /** At most this many rows are loaded into the process-local cache. */
  const WarmLoadCap: nat := 1000

  /** A nullable timestamp column as a key: NULL sorts below every timestamp. */
  function NullAsLowest(t: Option<Timestamp>): int {
    if t.Some? then t.value else -1
  }

  function RankOf(o: Ordering, row: Row): Rank {
    match o
    case Recent => Rank(if row.lastUsed.Some? then row.lastUsed.value else row.record.createdAt, 0)
    case Created => Rank(row.record.createdAt, 0)
    case Popular => Rank(row.useCount, NullAsLowest(row.lastUsed))
    case Warm(now) =>
      Rank(if row.lastUsed.Some? && row.lastUsed.value + WarmWindow > now then row.useCount else 0,
           NullAsLowest(row.lastUsed))
  }

  /** The WHERE clause of each scan. */
  predicate Included(o: Ordering, row: Row) {
    o.Popular? ==> row.useCount > 0
  }

  function Where(o: Ordering, t: Table): (r: seq<Row>)
    ensures |r| <= |t|
    ensures forall row :: row in r <==> row in t && Included(o, row)
    ensures multiset(r) <= multiset(t)
  {
    if |t| == 0 then []
    else
      assert t == [t[0]] + t[1..];
      if Included(o, t[0]) then [t[0]] + Where(o, t[1..])
      else Where(o, t[1..])
  }

  predicate SortedDesc(o: Ordering, s: seq<Row>) {
    forall i, j :: 0 <= i < j < |s| ==> AtMost(RankOf(o, s[j]), RankOf(o, s[i]))
  }

  /** A row that ranks at least as high as every row of a sorted sequence
      can go in front of it. */
  lemma PrependSorted(o: Ordering, x: Row, s: seq<Row>)
    requires SortedDesc(o, s)
    requires forall y :: y in s ==> AtMost(RankOf(o, y), RankOf(o, x))
    ensures SortedDesc(o, [x] + s)
  {
    var r := [x] + s;
    forall i, j | 0 <= i < j < |r| ensures AtMost(RankOf(o, r[j]), RankOf(o, r[i])) {
      assert r[j] == s[j - 1];
      if i > 0 {
        assert r[i] == s[i - 1];
      } else {
        assert r[j] in s;
      }
    }
  }

  /** Places `x` before the first row that ranks strictly below it. */
  function InsertDesc(o: Ordering, x: Row, s: seq<Row>): (r: seq<Row>)
    requires SortedDesc(o, s)
    ensures SortedDesc(o, r)
    ensures multiset(r) == multiset(s) + multiset{x}
  {
    if |s| == 0 then [x]
    else if AtMost(RankOf(o, s[0]), RankOf(o, x)) then
      PrependSorted(o, x, s);
      [x] + s
    else
      var tail := InsertDesc(o, x, s[1..]);
      assert s == [s[0]] + s[1..];
      assert forall y :: y in tail ==> y == x || y in s[1..] by {
        forall y | y in tail ensures y == x || y in s[1..] {
          assert y in multiset(tail);
        }
      }
      PrependSorted(o, s[0], tail);
      [s[0]] + tail
  }

  /** The rows ranked from highest to lowest. */
  function SortDesc(o: Ordering, s: seq<Row>): (r: seq<Row>)
    ensures SortedDesc(o, r)
    ensures multiset(r) == multiset(s)
  {
    if |s| == 0 then []
    else
      assert s == [s[0]] + s[1..];
      InsertDesc(o, s[0], SortDesc(o, s[1..]))
  }

  /** The rows one scan returns, before parseMemoryRow. */
  function Scan(o: Ordering, t: Table, limit: int): seq<Row> {
    SqlLimit(SortDesc(o, Where(o, t)), limit)
  }

  /** The records one scan returns. */
  function List(o: Ordering, t: Table, limit: int): seq<Memory> {
    ParseRows(Scan(o, t, limit))
  }

  /** The sorted rows of a scan, before its LIMIT. */
  function Ranked(o: Ordering, t: Table): (s: seq<Row>)
    ensures |s| == |Where(o, t)|
    ensures SortedDesc(o, s)
    ensures forall row :: row in s <==> row in t && Included(o, row)
  {
    var w := Where(o, t);
    var s := SortDesc(o, w);
    assert |s| == |multiset(s)| == |multiset(w)| == |w|;
    assert forall row :: row in s <==> row in multiset(w);
    s
  }

  lemma ScanIsPrefix(o: Ordering, t: Table, limit: int)
    ensures Scan(o, t, limit) == SqlLimit(Ranked(o, t), limit)
  {
  }

  /** A scan returns only rows of the table that its WHERE clause admits, from
      the highest rank down, as many as the limit allows (all when the limit
      is negative). */
  lemma ScanIsSortedSelection(o: Ordering, t: Table, limit: int)
    ensures SortedDesc(o, Scan(o, t, limit))
    ensures forall row :: row in Scan(o, t, limit) ==> row in t && Included(o, row)
    ensures |Scan(o, t, limit)| == if 0 <= limit < |Where(o, t)| then limit else |Where(o, t)|
  {
    var s := Ranked(o, t);
    var r := Scan(o, t, limit);
    assert r <= s;
    forall row | row in r ensures row in s {
      var i :| 0 <= i < |r| && r[i] == row;
      assert s[i] == row;
    }
  }

  /** No row a scan admits but leaves out ranks above a row it returns. */
  lemma ScanIsTopRanked(o: Ordering, t: Table, limit: int, row: Row, q: Row)
    requires row in t && Included(o, row)
    requires row !in Scan(o, t, limit)
    requires q in Scan(o, t, limit)
    ensures AtMost(RankOf(o, row), RankOf(o, q))
  {
    var s := Ranked(o, t);
    var r := Scan(o, t, limit);
    assert r <= s;
    var j :| 0 <= j < |s| && s[j] == row;
    var i :| 0 <= i < |r| && r[i] == q;
    assert s[i] == q;
  }

  /** A scan never returns the same row twice, so no record twice. */
  lemma ScanHasDistinctIds(o: Ordering, t: Table, limit: int)
    requires DistinctIds(t)
    ensures DistinctIds(Scan(o, t, limit))
  {
    var w := Where(o, t);
    var s := SortDesc(o, w);
    WhereDistinct(o, t);
    PermutationDistinct(w, s);
  }

  lemma {:induction false} WhereDistinct(o: Ordering, t: Table)
    requires DistinctIds(t)
    ensures DistinctIds(Where(o, t))
  {
    if |t| > 0 {
      assert t == [t[0]] + t[1..];
      DistinctCons(t[0], t[1..]);
      WhereDistinct(o, t[1..]);
      if Included(o, t[0]) {
        DistinctCons(t[0], Where(o, t[1..]));
      }
    }
  }

  lemma PermutationDistinct(a: seq<Row>, b: seq<Row>)
    requires DistinctIds(a)
    requires multiset(a) == multiset(b)
    ensures DistinctIds(b)
  {
    forall i, j | 0 <= i < j < |b| ensures b[i].record.id != b[j].record.id {
      assert b[i] in multiset(a) && b[j] in multiset(a);
      var i' :| 0 <= i' < |a| && a[i'] == b[i];
      var j' :| 0 <= j' < |a| && a[j'] == b[j];
      if b[i] == b[j] {
        var m := multiset(b);
        assert b == b[..i] + [b[i]] + b[i + 1..j] + [b[j]] + b[j + 1..];
        assert m[b[i]] >= 2;
        DistinctCount(a, b[i]);
      }
    }
  }

  lemma {:induction false} DistinctCount(a: seq<Row>, x: Row)
    requires DistinctIds(a)
    ensures multiset(a)[x] <= 1
  {
    if |a| > 0 {
      assert a == [a[0]] + a[1..];
      DistinctCons(a[0], a[1..]);
      DistinctCount(a[1..], x);
      if a[0] == x {
        assert x !in a[1..];
      }
    }
  }

  /** getPopularMemories never returns a row that was never used. */
  lemma PopularSkipsUnused(t: Table, limit: int)
    ensures forall row :: row in Scan(Popular, t, limit) ==> row.useCount > 0
  {
    ScanIsSortedSelection(Popular, t, limit);
  }
}

=== FILE: metrics.dfy ===
/** recordOperation's per-operation latency windows. */
module Metrics {

  /** At most this many samples are kept per operation. */
  const WindowSize: nat := 100

  /** `times.push(sample); if (times.length > 100) times.shift();` */
  function Push<S>(window: seq<S>, sample: S): seq<S> {
    var grown := window + [sample];
    if |grown| > WindowSize then grown[1..] else grown
  }

  /** The most recent samples of a history, at most WindowSize of them. */
  function Latest<S>(history: seq<S>): (r: seq<S>)
    ensures |r| <= WindowSize
    ensures |r| == if |history| <= WindowSize then |history| else WindowSize
    ensures r == history[|history| - |r|..]
  {
    if |history| <= WindowSize then history else history[|history| - WindowSize..]
  }

  /** A sequence of recordOperation calls for one operation. */
  function PushAll<S>(window: seq<S>, samples: seq<S>): seq<S>
    decreases |samples|
  {
    if |samples| == 0 then window else PushAll(Push(window, samples[0]), samples[1..])
  }

  /** One push on a window that is within bounds keeps it within bounds, puts
      the new sample last, and drops the oldest sample only when full. */
  lemma PushBounded<S>(window: seq<S>, sample: S)
    requires |window| <= WindowSize
    ensures var w := Push(window, sample);
            && |w| <= WindowSize
            && |w| > 0 && w[|w| - 1] == sample
            && (|window| < WindowSize ==> w == window + [sample])
            && (|window| == WindowSize ==> w == window[1..] + [sample])
  {
    if |window| == WindowSize {
      assert (window + [sample])[1..] == window[1..] + [sample];
    }
  }

  /** A window that holds the latest samples still does after one more. */
  lemma PushKeepsLatest<S>(history: seq<S>, sample: S)
    ensures Push(Latest(history), sample) == Latest(history + [sample])
  {
    var h := history + [sample];
    if |history| > WindowSize {
      assert Latest(history) + [sample] == history[|history| - WindowSize..] + [sample];
      assert (history[|history| - WindowSize..] + [sample])[1..] == h[|h| - WindowSize..];
    } else if |history| == WindowSize {
      assert (history + [sample])[1..] == h[|h| - WindowSize..];
    }
  }

  /** However many samples arrive, the window is exactly the latest
      WindowSize of them, oldest first. */
  lemma {:induction false} PushAllKeepsLatest<S>(history: seq<S>, samples: seq<S>)
    ensures PushAll(Latest(history), samples) == Latest(history + samples)
    decreases |samples|
  {
    if |samples| == 0 {
      assert history + samples == history;
    } else {
      PushKeepsLatest(history, samples[0]);
      PushAllKeepsLatest(history + [samples[0]], samples[1..]);
      assert history + [samples[0]] + samples[1..] == history + samples;
    }
  }

  /** The `operationTimes` map. */
  type Samples = map<string, seq<real>>

  function SamplesOf(times: Samples, op: string): seq<real> {
    if op in times then times[op] else []
  }

  /** recordOperation(op, sample). */
  function Record(times: Samples, op: string, sample: real): Samples {
    times[op := Push(SamplesOf(times, op), sample)]
  }

  predicate Bounded(times: Samples) {
    forall op :: op in times ==> |times[op]| <= WindowSize
  }

  /** Recording never lets any operation's window exceed WindowSize, never
      drops an operation, and touches no other operation's window. */
  lemma RecordKeepsBounded(times: Samples, op: string, sample: real)
    requires Bounded(times)
    ensures Bounded(Record(times, op, sample))
    ensures Record(times, op, sample).Keys == times.Keys + {op}
    ensures forall other :: other in times && other != op ==> Record(times, op, sample)[other] == times[other]
    ensures var w := Record(times, op, sample)[op]; |w| > 0 && w[|w| - 1] == sample
  {
    PushBounded(SamplesOf(times, op), sample);
  }

  /** The `count` field of getPerformanceStats for every recorded operation. */
  function Counts(times: Samples): (c: map<string, nat>)
    requires Bounded(times)
    ensures c.Keys == times.Keys
    ensures forall op :: op in c ==> c[op] <= WindowSize
  {
    map op | op in times :: |times[op]|
  }
}

=== FILE: records.dfy ===
/** The record ("memory") the engine stores, the caller's draft of one, the
    partial update applied to one, and the derived search text. */
module Records {

  /** Record ids are opaque strings. */
  type Id = string

  /** ISO-8601 timestamps produced by one clock compare as their instants do;
      they are modelled as milliseconds since the epoch. */
  type Timestamp = nat

  datatype Option<T> = None | Some(value: T)

  /** The metadata object: the three keys the engine reads or writes, and the
      caller's other keys (their values modelled as strings). `None` means the
      key is absent. */
  datatype Metadata = Metadata(
    useCount: Option<int>,
    lastUsed: Option<Timestamp>,
    category: Option<string>,
    extra: map<string, string>)

  datatype Memory = Memory(
    id: Id,
    content: string,
    userId: string,
    createdAt: Timestamp,
    updatedAt: Timestamp,
    project: Option<string>,
    directory: Option<string>,
    tags: seq<string>,
    metadata: Metadata)

  /** What a caller hands to addMemory: a record without id and timestamps. */
  datatype Draft = Draft(
    content: string,
    userId: string,
    project: Option<string>,
    directory: Option<string>,
    tags: seq<string>,
    metadata: Metadata)

  /** A Partial<Memory>: each present key replaces the record's field (a
      shallow spread, so `metadata` is replaced as a whole). For `project` and
      `directory` the value may itself be undefined. */
  datatype Patch = Patch(
    id: Option<Id>,
    content: Option<string>,
    userId: Option<string>,
    createdAt: Option<Timestamp>,
    updatedAt: Option<Timestamp>,
    project: Option<Option<string>>,
    directory: Option<Option<string>>,
    tags: Option<seq<string>>,
    metadata: Option<Metadata>)

  function Or<T>(o: Option<T>, fallback: T): T {
    if o.Some? then o.value else fallback
  }

  /** `{ use_count: 0, ...metadata }`: the caller's use_count wins when present. */
  function WithDefaultUseCount(md: Metadata): Metadata {
    if md.useCount.Some? then md else md.(useCount := Some(0))
  }

  /** The record addMemory builds from a draft, a fresh id and the clock. */
  function NewRecord(d: Draft, id: Id, now: Timestamp): Memory {
    Memory(id, d.content, d.userId, now, now, d.project, d.directory, d.tags,
           WithDefaultUseCount(d.metadata))
  }

  /** The caller-supplied part of a record. */
  function DraftOf(m: Memory): Draft {
    Draft(m.content, m.userId, m.project, m.directory, m.tags, m.metadata)
  }

  lemma NewRecordKeepsDraft(d: Draft, id: Id, now: Timestamp)
    ensures NewRecord(d, id, now).id == id
    ensures NewRecord(d, id, now).createdAt == now == NewRecord(d, id, now).updatedAt
    ensures DraftOf(NewRecord(d, id, now)) == d.(metadata := WithDefaultUseCount(d.metadata))
    ensures d.metadata.useCount.Some? ==> DraftOf(NewRecord(d, id, now)) == d
    ensures d.metadata.useCount.None? ==> NewRecord(d, id, now).metadata.useCount == Some(0)
  {
  }

  /** `{ ...memory, ...updates, updated_at: now }`. */
  function Merge(m: Memory, p: Patch, now: Timestamp): Memory {
    Memory(
      Or(p.id, m.id),
      Or(p.content, m.content),
      Or(p.userId, m.userId),
      Or(p.createdAt, m.createdAt),
      now,
      Or(p.project, m.project),
      Or(p.directory, m.directory),
      Or(p.tags, m.tags),
      Or(p.metadata, m.metadata))
  }

  const EmptyPatch: Patch := Patch(None, None, None, None, None, None, None, None, None)

  lemma MergeProperties(m: Memory, p: Patch, now: Timestamp)
    ensures Merge(m, p, now).updatedAt == now
    ensures Merge(m, EmptyPatch, now) == m.(updatedAt := now)
    ensures Merge(Merge(m, p, now), p, now) == Merge(m, p, now)
    ensures p.id.Some? ==> Merge(m, p, now).id == p.id.value
    ensures p.id.None? ==> Merge(m, p, now).id == m.id
    ensures p.content.Some? ==> Merge(m, p, now).content == p.content.value
    ensures p.content.None? ==> Merge(m, p, now).content == m.content
    ensures p.userId.Some? ==> Merge(m, p, now).userId == p.userId.value
    ensures p.userId.None? ==> Merge(m, p, now).userId == m.userId
    ensures p.createdAt.Some? ==> Merge(m, p, now).createdAt == p.createdAt.value
    ensures p.createdAt.None? ==> Merge(m, p, now).createdAt == m.createdAt
    ensures p.project.Some? ==> Merge(m, p, now).project == p.project.value
    ensures p.project.None? ==> Merge(m, p, now).project == m.project
    ensures p.directory.Some? ==> Merge(m, p, now).directory == p.directory.value
    ensures p.directory.None? ==> Merge(m, p, now).directory == m.directory
    ensures p.tags.Some? ==> Merge(m, p, now).tags == p.tags.value
    ensures p.tags.None? ==> Merge(m, p, now).tags == m.tags
    ensures p.metadata.Some? ==> Merge(m, p, now).metadata == p.metadata.value
    ensures p.metadata.None? ==> Merge(m, p, now).metadata == m.metadata
  {
  }

  /** `(metadata.use_count || 0)`. */
  function UseCountOrZero(md: Metadata): int {
    if md.useCount.Some? then md.useCount.value else 0
  }

  /** What incrementUseCount does to a cached record. */
  function Touched(m: Memory, now: Timestamp): Memory {
    m.(metadata := m.metadata.(useCount := Some(UseCountOrZero(m.metadata) + 1),
                               lastUsed := Some(now)))
  }

  /** `tags.join(sep)`. */
  function Join(parts: seq<string>, sep: char): string {
    if |parts| == 0 then ""
    else if |parts| == 1 then parts[0]
    else parts[0] + [sep] + Join(parts[1..], sep)
  }

  /** `s.split(sep)`: the pieces between separators; "" splits into [""]. */
  function Split(s: string, sep: char): (r: seq<string>)
    ensures |r| > 0
  {
    if |s| == 0 then [""]
    else
      var rest := Split(s[1..], sep);
      if s[0] == sep then [""] + rest
      else [[s[0]] + rest[0]] + rest[1..]
  }

  lemma {:induction false} SplitNoSep(p: string, sep: char)
    requires sep !in p
    ensures Split(p, sep) == [p]
  {
    if |p| > 0 {
      SplitNoSep(p[1..], sep);
      assert [p[0]] + p[1..] == p;
    }
  }

  lemma {:induction false} SplitAfterPiece(p: string, sep: char, s: string)
    requires sep !in p
    ensures Split(p + [sep] + s, sep) == [p] + Split(s, sep)
  {
    if |p| == 0 {
      assert p + [sep] + s == [sep] + s;
      assert ([sep] + s)[1..] == s;
    } else {
      assert (p + [sep] + s)[1..] == p[1..] + [sep] + s;
      SplitAfterPiece(p[1..], sep, s);
      assert [p[0]] + p[1..] == p;
    }
  }

  /** Joining a non-empty list of pieces that do not contain the separator
      can be undone by splitting on it: the space-joined tags of the search
      text are an injective encoding of the tag list. */
  lemma {:induction false} SplitJoin(parts: seq<string>, sep: char)
    requires |parts| > 0
    requires forall i :: 0 <= i < |parts| ==> sep !in parts[i]
    ensures Split(Join(parts, sep), sep) == parts
  {
    if |parts| == 1 {
      SplitNoSep(parts[0], sep);
    } else {
      SplitJoin(parts[1..], sep);
      SplitAfterPiece(parts[0], sep, Join(parts[1..], sep));
      assert [parts[0]] + parts[1..] == parts;
    }
  }

  /** `metadata.category || ""`. */
  function CategoryText(md: Metadata): string {
    if md.category.Some? then md.category.value else ""
  }

  /** The derived `search_text` column. */
  function SearchText(m: Memory): string {
    m.content + " " + Join(m.tags, ' ') + " " + CategoryText(m.metadata)
  }

  /** Use tracking does not change what the search text is built from. */
  lemma TouchedKeepsSearchText(m: Memory, now: Timestamp)
    ensures SearchText(Touched(m, now)) == SearchText(m)
    ensures UseCountOrZero(Touched(m, now).metadata) == UseCountOrZero(m.metadata) + 1
    ensures Touched(m, now).metadata.lastUsed == Some(now)
    ensures DraftOf(Touched(m, now)).(metadata := m.metadata) == DraftOf(m)
  {
  }
}

=== FILE: scenarios.dfy ===
/** What a caller of MemoryEngine can rely on across several calls. */
module Scenarios {
  import opened Records
  import opened DurableStore
  import opened Listings
  import opened SearchPipeline
  import opened Engine

  /** A record that addMemory accepted is read back from the local cache,
      whatever state Redis and the table are in, and counts as a hit. */
  method AddThenGet(e: MemoryEngine, draft: Draft, id: Id, now: Timestamp, redisGetFails: bool, dbReadFails: bool)
    returns (r: Result<Id>, m: Option<Memory>)
    requires e.Valid()
    modifies e
    ensures e.Valid()
    ensures Find(old(e.table), id).Some? ==> r == Err(DuplicateId)
    ensures Find(old(e.table), id).None? ==> r == Ok(id)
    ensures r.Ok? ==> m == Some(NewRecord(draft, id, now)) && e.hits == old(e.hits) + 1
  {
    r := e.AddMemory(draft, id, now, false, 0.0);
    m := e.GetMemory(id, redisGetFails, dbReadFails, 0.0);
  }

  /** After deleteMemory no tier holds the id: getMemory answers null and
      counts a miss. */
  method DeleteThenGet(e: MemoryEngine, id: Id, redisGetFails: bool, dbReadFails: bool) returns (m: Option<Memory>)
    requires e.Valid()
    modifies e
    ensures e.Valid()
    ensures m.None?
    ensures e.hits == old(e.hits) && e.misses == old(e.misses) + 1
  {
    e.DeleteMemory(id, 0.0);
    m := e.GetMemory(id, redisGetFails, dbReadFails, 0.0);
  }

  /** While Redis holds only ids the local cache holds, which an engine
      opened with an empty or absent Redis keeps true, getMemory answers as
      if Redis were absent, whether or not Redis reads fail. */
  method GetIgnoresRedis(e: MemoryEngine, id: Id, redisGetFails: bool, dbReadFails: bool) returns (m: Option<Memory>)
    requires e.Valid() && e.RedisBehindCache()
    modifies e
    ensures e.Valid() && e.RedisBehindCache()
    ensures m == Lookup(old(e.memoryCache), None, false, old(e.table), dbReadFails, id).found
  {
    if e.redis.Some? {
      RedisBehindCacheIsTransparent(e.memoryCache, e.redis.value, redisGetFails, e.table, dbReadFails, id);
    }
    m := e.GetMemory(id, redisGetFails, dbReadFails, 0.0);
  }

  /** After updateMemory succeeds, getMemory answers the merged record from
      the local cache; when there was nothing to update, it still answers
      nothing. */
  method UpdateThenGet(e: MemoryEngine, id: Id, patch: Patch, now: Timestamp, redisGetFails: bool, dbReadFails: bool)
    returns (r: Status, m: Option<Memory>)
    requires e.Valid()
    modifies e
    ensures e.Valid()
    ensures var a := Lookup(old(e.memoryCache), old(e.redis), redisGetFails, old(e.table), dbReadFails, id);
            && r == Completed
            && (a.found.Some? ==> m == Some(Merge(a.found.value, patch, now)))
            && (a.found.None? ==> m.None?)
  {
    ghost var a := Lookup(e.memoryCache, e.redis, redisGetFails, e.table, dbReadFails, id);
    ghost var redis0 := e.redis;
    r := e.UpdateMemory(id, patch, now, redisGetFails, dbReadFails, false, 0.0, 0.0);
    if a.found.None? {
      assert a.tier == Database && id !in e.memoryCache;
      assert e.redis == redis0;
    }
    m := e.GetMemory(id, redisGetFails, dbReadFails, 0.0);
  }

  /** The same query with the same options is answered from the
      search-result cache the second time, whatever the matchers would now
      say, and the second call is a hit. */
  method SearchTwice(e: MemoryEngine, query: string, options: SearchOptions,
                     fuzzyHits: seq<Memory>, ftsRanked: seq<Row>,
                     laterFuzzyHits: seq<Memory>, laterFtsRanked: seq<Row>)
    returns (first: seq<Memory>, second: seq<Memory>)
    requires e.Valid()
    requires e.fuse.Some? ==> forall m :: m in fuzzyHits + laterFuzzyHits ==> m in e.fuse.value.Values
    requires forall row :: row in ftsRanked + laterFtsRanked ==> row in e.table
    modifies e
    ensures e.Valid()
    ensures second == first
    ensures forall m :: m in second ==> Matches(options, m)
    ensures e.hits + e.misses == old(e.hits) + old(e.misses) + 2
    ensures e.hits >= old(e.hits) + 1
  {
    first := e.SearchMemories(query, options, fuzzyHits, ftsRanked, 0.0);
    second := e.SearchMemories(query, options, laterFuzzyHits, laterFtsRanked, 0.0);
  }

  /** Searching among the one record `rec`: it is the answer when it passes
      the filters and the limit leaves room, and nothing is otherwise. */
  lemma OnlyCandidate(options: SearchOptions, indexBuilt: bool, rec: Memory)
    ensures Refine(options, Candidates(options, indexBuilt, [rec], [NewRow(rec)])) ==
            if Matches(options, rec) && EffectiveLimit(options) > 0 then [rec] else []
  {
    var candidates := Candidates(options, indexBuilt, [rec], [NewRow(rec)]);
    assert ParseRows([NewRow(rec)]) == [rec];
    assert [rec][1..] == [];
    if Given(options.project) {
      assert KeepProject(options, [rec]) == if rec.project == options.project then [rec] else [];
    }
    assert candidates == [rec] || (candidates == [] && !Matches(options, rec));
    FiltersCompose(options, candidates);
    assert KeepMatching(options, [rec]) == if Matches(options, rec) then [rec] else [];
  }

  /** An accepted addMemory clears the search-result cache, so a following
      search is computed afresh: when the matchers answer with just the new
      record, the search returns it if it passes the filters and the limit
      leaves room, and nothing otherwise. */
  method SearchAfterAdd(e: MemoryEngine, draft: Draft, id: Id, now: Timestamp, query: string, options: SearchOptions)
    returns (r: Result<Id>, results: seq<Memory>)
    requires e.Valid()
    modifies e
    ensures e.Valid()
    ensures r.Ok? ==> e.misses == old(e.misses) + 1
    ensures r.Ok? ==>
              var rec := NewRecord(draft, id, now);
              results == if Matches(options, rec) && EffectiveLimit(options) > 0 then [rec] else []
  {
    r := e.AddMemory(draft, id, now, false, 0.0);
    if r.Err? {
      return r, [];
    }
    var rec := NewRecord(draft, id, now);
    assert e.memoryCache[id] == rec;
    assert NewRow(rec) == e.table[|e.table| - 1];
    ghost var indexBuilt := e.fuse.Some?;
    results := e.SearchMemories(query, options, [rec], [NewRow(rec)], 0.0);
    OnlyCandidate(options, indexBuilt, rec);
  }

  /** A second deleteMemory of the same id changes no store. */
  method DeleteTwice(e: MemoryEngine, id: Id)
    requires e.Valid()
    modifies e
    ensures e.Valid()
    ensures e.table == DeleteRows(old(e.table), id)
    ensures e.memoryCache == old(e.memoryCache) - {id}
    ensures e.redis == (if old(e.redis).Some? then Some(old(e.redis).value - {id}) else None)
  {
    e.DeleteMemory(id, 0.0);
    ghost var t1, c1, r1 := e.table, e.memoryCache, e.redis;
    e.DeleteMemory(id, 0.0);
    DeleteIdempotent(t1, id);
    assert c1 - {id} == c1;
    assert r1.Some? ==> r1.value - {id} == r1.value;
  }

  /** A stored record that has been used once is then among the popular
      records, when no limit cuts the list short. */
  lemma TouchedIsPopular(t: Table, id: Id, now: Timestamp)
    requires Find(t, id).Some?
    ensures Find(t, id).value.record in List(Popular, TouchRows(t, id, now), -1)
  {
    var t' := TouchRows(t, id, now);
    FindAfterTouch(t, id, now, id);
    var row := Find(t', id).value;
    assert row.useCount > 0;
    ScanIsPrefix(Popular, t', -1);
    var rows := Scan(Popular, t', -1);
    assert row in rows;
    var i :| 0 <= i < |rows| && rows[i] == row;
    assert List(Popular, t', -1)[i] == row.record;
  }

  /** incrementUseCount on a stored record puts it in the popular list. */
  method IncrementThenPopular(e: MemoryEngine, id: Id, now: Timestamp) returns (ms: seq<Memory>)
    requires e.Valid()
    modifies e
    ensures e.Valid()
    ensures Find(old(e.table), id).Some? ==> Find(old(e.table), id).value.record in ms
  {
    e.IncrementUseCount(id, now);
    ms := e.GetPopularMemories(false, 0.0, -1);
    if Find(old(e.table), id).Some? {
      TouchedIsPopular(old(e.table), id, now);
    }
  }
}

=== FILE: search_pipeline.dfy ===
/** What searchMemories computes on a cache miss: candidates from the fuzzy
    index or from full-text search, then the project, directory and tag
    filters, then the limit. The fuzzy matcher and the full-text MATCH/bm25
    ranking are foreign code; their answers arrive as sequences. */
module SearchPipeline {
  import opened Records
  import opened DurableStore
  import opened Sublists

  datatype SearchOptions = SearchOptions(
    fuzzy: Option<bool>,
    project: Option<string>,
    directory: Option<string>,
    tags: Option<seq<string>>,
    limit: Option<int>,
    includeArchived: Option<bool>)

  /** The search-result cache key: the query with its options. */
  datatype SearchKey = SearchKey(query: string, options: SearchOptions)

  /** JavaScript truthiness of an optional string: present and not "". */
  predicate Given(o: Option<string>) {
    o.Some? && o.value != ""
  }

  predicate TagFilterOn(opts: SearchOptions) {
    opts.tags.Some? && |opts.tags.value| > 0
  }

  predicate SharesTag(wanted: seq<string>, m: Memory) {
    exists tag :: tag in wanted && tag in m.tags
  }

  predicate InProject(opts: SearchOptions, m: Memory) {
    Given(opts.project) ==> m.project == opts.project
  }

  predicate InDirectory(opts: SearchOptions, m: Memory) {
    Given(opts.directory) ==> m.directory == opts.directory
  }

  predicate HasWantedTag(opts: SearchOptions, m: Memory) {
    TagFilterOn(opts) ==> SharesTag(opts.tags.value, m)
  }

  /** Everything the three filters ask of one record. */
  predicate Matches(opts: SearchOptions, m: Memory) {
    InProject(opts, m) && InDirectory(opts, m) && HasWantedTag(opts, m)
  }

  /** `results.filter(m => m.project === options.project)`. */
  function KeepProject(opts: SearchOptions, ms: seq<Memory>): (r: seq<Memory>)
    ensures forall m :: m in r <==> m in ms && m.project == opts.project
  {
    if |ms| == 0 then []
    else
      assert ms == [ms[0]] + ms[1..];
      if ms[0].project == opts.project then [ms[0]] + KeepProject(opts, ms[1..])
      else KeepProject(opts, ms[1..])
  }

  /** `results.filter(m => m.directory === options.directory)`. */
  function KeepDirectory(opts: SearchOptions, ms: seq<Memory>): seq<Memory> {
    if |ms| == 0 then []
    else if ms[0].directory == opts.directory then [ms[0]] + KeepDirectory(opts, ms[1..])
    else KeepDirectory(opts, ms[1..])
  }

  /** `results.filter(m => options.tags.some(tag => m.tags.includes(tag)))`. */
  function KeepTagged(wanted: seq<string>, ms: seq<Memory>): seq<Memory> {
    if |ms| == 0 then []
    else if SharesTag(wanted, ms[0]) then [ms[0]] + KeepTagged(wanted, ms[1..])
    else KeepTagged(wanted, ms[1..])
  }

  /** The three filters, each applied only when its option is set. */
  function ApplyFilters(opts: SearchOptions, ms: seq<Memory>): seq<Memory> {
    var byProject := if Given(opts.project) then KeepProject(opts, ms) else ms;
    var byDirectory := if Given(opts.directory) then KeepDirectory(opts, byProject) else byProject;
    if TagFilterOn(opts) then KeepTagged(opts.tags.value, byDirectory) else byDirectory
  }

  /** The reference filter: one pass keeping exactly the matching records. */
  function KeepMatching(opts: SearchOptions, ms: seq<Memory>): (r: seq<Memory>)
    ensures IsSublist(r, ms)
    ensures forall m :: m in r <==> m in ms && Matches(opts, m)
  {
    if |ms| == 0 then []
    else
      var rest := KeepMatching(opts, ms[1..]);
      assert ms == [ms[0]] + ms[1..];
      if Matches(opts, ms[0]) then
        assert ([ms[0]] + rest)[1..] == rest;
        [ms[0]] + rest
      else
        SublistCons(rest, ms[0], ms[1..]);
        rest
  }

  /** Filtering in stages keeps the same records, in the same order, as
      keeping the matching ones in one pass. */
  lemma {:induction false} FiltersCompose(opts: SearchOptions, ms: seq<Memory>)
    ensures ApplyFilters(opts, ms) == KeepMatching(opts, ms)
  {
    var p := opts.(directory := None, tags := None);
    var pd := opts.(tags := None);
    var byProject := if Given(opts.project) then KeepProject(opts, ms) else ms;
    var byDirectory := if Given(opts.directory) then KeepDirectory(opts, byProject) else byProject;
    StageProject(opts, ms);
    assert byProject == KeepMatching(p, ms);
    StageDirectory(opts, ms);
    assert byDirectory == KeepMatching(pd, ms);
    StageTags(opts, ms);
  }

  lemma {:induction false} StageProject(opts: SearchOptions, ms: seq<Memory>)
    ensures (if Given(opts.project) then KeepProject(opts, ms) else ms)
            == KeepMatching(opts.(directory := None, tags := None), ms)
  {
    var p := opts.(directory := None, tags := None);
    if |ms| > 0 {
      StageProject(opts, ms[1..]);
      assert Matches(p, ms[0]) <==> InProject(opts, ms[0]);
    }
  }

  lemma {:induction false} DirectoryAfter(opts: SearchOptions, ms: seq<Memory>)
    requires Given(opts.directory)
    ensures KeepDirectory(opts, KeepMatching(opts.(directory := None, tags := None), ms))
            == KeepMatching(opts.(tags := None), ms)
  {
    var p := opts.(directory := None, tags := None);
    var pd := opts.(tags := None);
    if |ms| > 0 {
      DirectoryAfter(opts, ms[1..]);
      if Matches(p, ms[0]) {
        assert KeepMatching(p, ms) == [ms[0]] + KeepMatching(p, ms[1..]);
      }
    }
  }

  lemma {:induction false} SameWithoutDirectory(opts: SearchOptions, ms: seq<Memory>)
    requires !Given(opts.directory)
    ensures KeepMatching(opts.(directory := None, tags := None), ms) == KeepMatching(opts.(tags := None), ms)
  {
    if |ms| > 0 {
      SameWithoutDirectory(opts, ms[1..]);
    }
  }

  lemma StageDirectory(opts: SearchOptions, ms: seq<Memory>)
    ensures var byProject := if Given(opts.project) then KeepProject(opts, ms) else ms;
            (if Given(opts.directory) then KeepDirectory(opts, byProject) else byProject)
            == KeepMatching(opts.(tags := None), ms)
  {
    StageProject(opts, ms);
    if Given(opts.directory) {
      DirectoryAfter(opts, ms);
    } else {
      SameWithoutDirectory(opts, ms);
    }
  }

  lemma {:induction false} TagsAfter(opts: SearchOptions, ms: seq<Memory>)
    requires TagFilterOn(opts)
    ensures KeepTagged(opts.tags.value, KeepMatching(opts.(tags := None), ms)) == KeepMatching(opts, ms)
  {
    var pd := opts.(tags := None);
    if |ms| > 0 {
      TagsAfter(opts, ms[1..]);
      if Matches(pd, ms[0]) {
        assert KeepMatching(pd, ms) == [ms[0]] + KeepMatching(pd, ms[1..]);
      }
    }
  }

  lemma {:induction false} SameWithoutTags(opts: SearchOptions, ms: seq<Memory>)
    requires !TagFilterOn(opts)
    ensures KeepMatching(opts.(tags := None), ms) == KeepMatching(opts, ms)
  {
    if |ms| > 0 {
      SameWithoutTags(opts, ms[1..]);
    }
  }

  lemma StageTags(opts: SearchOptions, ms: seq<Memory>)
    ensures var byDirectory := KeepMatching(opts.(tags := None), ms);
            (if TagFilterOn(opts) then KeepTagged(opts.tags.value, byDirectory) else byDirectory)
            == KeepMatching(opts, ms)
  {
    if TagFilterOn(opts) {
      TagsAfter(opts, ms);
    } else {
      SameWithoutTags(opts, ms);
    }
  }

  /** `options.limit || 50`. */
  function EffectiveLimit(opts: SearchOptions): int {
    if opts.limit.None? || opts.limit.value == 0 then 50 else opts.limit.value
  }

  /** `s.slice(0, end)`: a negative end counts from the back. */
  function Slice<T>(s: seq<T>, end: int): (r: seq<T>)
    ensures r <= s
    ensures 0 <= end ==> |r| == if end < |s| then end else |s|
    ensures end < 0 ==> |r| == if |s| + end > 0 then |s| + end else 0
  {
    var stop := if end < 0 then |s| + end else end;
    if stop <= 0 then [] else if stop >= |s| then s else s[..stop]
  }

  /** Filters, then limit: the post-processing of the candidates. */
  function Refine(opts: SearchOptions, candidates: seq<Memory>): seq<Memory> {
    Slice(ApplyFilters(opts, candidates), EffectiveLimit(opts))
  }

  /** Fuzzy matching is used unless `fuzzy` is false or no index was built. */
  predicate UsesFuzzy(opts: SearchOptions, indexBuilt: bool) {
    opts.fuzzy != Some(false) && indexBuilt
  }

  /** fullTextSearch: the MATCH rows in bm25 order (`ranked`), with the
      project condition and `LIMIT options.limit || 50` applied inside the query. */
  function FullTextSearch(opts: SearchOptions, ranked: seq<Row>): seq<Memory> {
    var ms := ParseRows(ranked);
    SqlLimit(if Given(opts.project) then KeepProject(opts, ms) else ms, EffectiveLimit(opts))
  }

  function Candidates(opts: SearchOptions, indexBuilt: bool, fuzzyHits: seq<Memory>, ranked: seq<Row>): seq<Memory> {
    if UsesFuzzy(opts, indexBuilt) then fuzzyHits else FullTextSearch(opts, ranked)
  }

  /** Every result satisfies the filters that are set, results keep the
      candidates' order, and they are the first matching candidates. */
  lemma RefineIsFilteredPrefix(opts: SearchOptions, candidates: seq<Memory>)
    ensures Refine(opts, candidates) <= KeepMatching(opts, candidates)
    ensures IsSublist(Refine(opts, candidates), candidates)
    ensures forall m :: m in Refine(opts, candidates) ==> m in candidates && Matches(opts, m)
  {
    FiltersCompose(opts, candidates);
    var r := Refine(opts, candidates);
    var k := KeepMatching(opts, candidates);
    PrefixOfSublist(r, k, candidates);
    forall m | m in r ensures m in k {
      var i :| 0 <= i < |r| && r[i] == m;
      assert k[i] == m;
    }
  }

  /** The number of results: the limit (50 when unset or 0) caps the matching
      candidates; a negative limit drops that many from the end. */
  lemma RefineLength(opts: SearchOptions, candidates: seq<Memory>)
    ensures var n := |KeepMatching(opts, candidates)|;
            var l := EffectiveLimit(opts);
            |Refine(opts, candidates)| ==
              if l >= 0 then (if l < n then l else n)
              else (if n + l > 0 then n + l else 0)
    ensures opts.limit.None? || opts.limit.value == 0 ==> |Refine(opts, candidates)| <= 50
    ensures opts.limit.Some? && opts.limit.value > 0 ==> |Refine(opts, candidates)| <= opts.limit.value
  {
    FiltersCompose(opts, candidates);
  }

  /** When the limit does not bite, every matching candidate is returned. */
  lemma RefineComplete(opts: SearchOptions, candidates: seq<Memory>)
    requires |KeepMatching(opts, candidates)| <= EffectiveLimit(opts)
    ensures Refine(opts, candidates) == KeepMatching(opts, candidates)
    ensures forall m :: m in candidates && Matches(opts, m) ==> m in Refine(opts, candidates)
  {
    FiltersCompose(opts, candidates);
  }

  /** Full-text candidates already satisfy the project filter, are drawn
      from the MATCH rows, and number at most the effective positive limit. */
  lemma FullTextSearchBounded(opts: SearchOptions, ranked: seq<Row>)
    ensures forall m :: m in FullTextSearch(opts, ranked) ==> InProject(opts, m)
    ensures forall m :: m in FullTextSearch(opts, ranked) ==> exists row :: row in ranked && row.record == m
    ensures EffectiveLimit(opts) > 0 ==> |FullTextSearch(opts, ranked)| <= EffectiveLimit(opts)
  {
    var ms := ParseRows(ranked);
    var f := if Given(opts.project) then KeepProject(opts, ms) else ms;
    var r := FullTextSearch(opts, ranked);
    forall m | m in r ensures InProject(opts, m) && exists row :: row in ranked && row.record == m {
      assert m in f;
      assert m in ms;
      var i :| 0 <= i < |ms| && ms[i] == m;
      assert ranked[i] in ranked && ranked[i].record == m;
    }
  }

  /** Use tracking never changes whether a record passes the filters. */
  lemma TouchedKeepsMatching(opts: SearchOptions, m: Memory, now: Timestamp)
    ensures Matches(opts, Touched(m, now)) == Matches(opts, m)
  {
  }
}

=== FILE: sublists.dfy ===
/** Order-preserving sub-sequences: what a filter or a DELETE leaves of a
    sequence of rows or records. */
module Sublists {

  /** `a` is `b` with some elements left out, order kept. */
  predicate IsSublist<T(==)>(a: seq<T>, b: seq<T>) {
    if |a| == 0 then true
    else if |b| == 0 then false
    else if a[0] == b[0] then IsSublist(a[1..], b[1..])
    else IsSublist(a, b[1..])
  }

  lemma {:induction false} SublistCons<T>(a: seq<T>, x: T, b: seq<T>)
    requires IsSublist(a, b)
    ensures IsSublist(a, [x] + b)
    decreases |a|, 1, |b|
  {
    var xb := [x] + b;
    assert xb[1..] == b;
    if |a| > 0 && a[0] == x {
      SublistDropFirst(a, b);
    }
  }

  lemma {:induction false} SublistDropFirst<T>(a: seq<T>, b: seq<T>)
    requires |a| > 0
    requires IsSublist(a, b)
    ensures IsSublist(a[1..], b)
    decreases |a|, 0, |b|
  {
    if a[0] == b[0] {
      SublistCons(a[1..], b[0], b[1..]);
      assert [b[0]] + b[1..] == b;
    } else {
      SublistDropFirst(a, b[1..]);
      SublistCons(a[1..], b[0], b[1..]);
      assert [b[0]] + b[1..] == b;
    }
  }

  lemma {:induction false} PrefixOfSublist<T>(p: seq<T>, a: seq<T>, b: seq<T>)
    requires p <= a
    requires IsSublist(a, b)
    ensures IsSublist(p, b)
  {
    if |p| > 0 {
      if a[0] == b[0] {
        PrefixOfSublist(p[1..], a[1..], b[1..]);
      } else {
        PrefixOfSublist(p, a, b[1..]);
      }
    }
  }

  lemma {:induction false} SublistMembers<T>(a: seq<T>, b: seq<T>)
    requires IsSublist(a, b)
    ensures forall x :: x in a ==> x in b
  {
    if |a| > 0 {
      if a[0] == b[0] {
        SublistMembers(a[1..], b[1..]);
        assert a == [a[0]] + a[1..];
      } else {
        SublistMembers(a, b[1..]);
      }
    }
  }
}
